=== FILE: README.md ===
# Order-confirmation calls: a Dafny model

The system confirms orders of Shopify stores by telephone.
Orders sit in a document store. A merchant's dashboard lists them, places a
call for one, overrides its status, and polls the status of the call. The
telephony provider fetches an interactive voice menu in Urdu for the order,
and then posts back the key the customer pressed. Keys 1 and 0 confirm or
cancel the order; key 2 connects the customer to support. Merchants
register, log in, update their account and edit their store's voice
settings.

The model covers:

- the record types and their defaults (`Models`);
- the data-access layer as a class over three collections, with unique
  indexes, field-level `$set` updates and the paginated, filtered,
  newest-first listing (`Persistence`);
- the telephony adapter, with voice scripts as sequences of verbs and the
  provider's answers as parameters (`VoiceService`);
- the three routers: orders (`OrdersRouter`), voice (`VoiceRouter`) and
  authentication (`AuthRouter`).

`Scenarios` strings the handlers together on a fresh database.

Modelling choices:

- **Identifiers.** Ids are natural numbers, allocated densely: a new record
  gets the current size of its collection. So the collection's natural
  order is ascending id order.
- **Times and external services.** Timestamps are supplied by the caller.
  The following are all function parameters:
  - password hashing and verification;
  - the telephony provider's answer to placing a call;
  - the provider's answer to a call lookup.
- **Stored status fields.** An order's `status` and `callStatus` are stored
  as strings. The manual override stores any string. A placed call stores
  whatever status word the provider returns. The enumerations and their
  string names are related by parse/name round-trip lemmas.
- **Order lookup by number.** The keypad handler looks an order up by its
  number through a database helper that `database.py` does not define (see
  "## Findings"). `Persistence.Database.OrderIdByNumber` models the intended
  lookup as "the first order with that number, in natural order".
- **Record keys.** The handlers address records by `order["id"]` and
  `store["id"]`, but stored documents carry their key under `_id`. The
  intended handlers use the record's key; the voice-settings update as
  written is listed under "## Findings".
- **Call-status poll.** `get_call_status` reads a `call_sid` field that no
  handler of this core ever writes. The Order record in `models.py` does not
  declare that field; the model's order carries it as the optional `callSid`. So for an order called through the API,
  the poll answers 400. `Scenarios.CallAndConfirm` proves this.

## Model

| member | source | states |
|---|---|---|
| Models.ParseOrderStatus | models.py:6-11 | a string parses to an order status exactly when it is one of the five names, and parsing gives back the status with that name |
| Models.OrderStatusIsExactly | models.py:6-11 | the five names are exactly the names of the five statuses, one name per status |
| Models.ParseCallStatus | models.py:13-17 | a string parses to a call status exactly when it is one of the four names, and parsing gives back the status with that name |
| Models.CallStatusIsExactly | models.py:13-17 | the four names are exactly the names of the four call statuses |
| Models.NewOrder | models.py:25-36 | a new order is pending, not called, has no last call, an empty call history and no call id, is stamped with the creation time, and keeps the given identity and contact fields |
| Models.NewStore | models.py:38-50 | a new store has the default voice settings (language ur, voice default, 3 retries, 300 s delay); its creation and update times are the two clock readings of the two default factories |
| Models.NewUser | models.py:52-58 | a new user is active and has no store |
| Persistence.InsertKeepsOrdersValid | database.py:16 | storing an order under the next id, with an external id no order holds, keeps the keys dense and the external ids unique |
| Persistence.ReplaceKeepsOrdersValid | database.py:16 | replacing an order with one whose external id no other order holds keeps the unique index |
| Persistence.InsertKeepsStoresValid | database.py:23 | storing a store under the next id, with a free domain, keeps the keys dense and the domains unique |
| Persistence.ReplaceKeepsStoresValid | database.py:23 | replacing a store with one whose domain no other store holds keeps the unique index |
| Persistence.InsertKeepsUsersValid | database.py:27 | storing a user under the next id, with a free email, keeps the keys dense and the emails unique |
| Persistence.ReplaceKeepsUsersValid | database.py:27 | replacing a user with one whose email no other user holds keeps the unique index |
| Persistence.FirstFrom | database.py:63-64 | a `find_one` scan in natural order finds the first id in a range with the property, or proves that none has it |
| Persistence.ApplyOrderPatch | database.py:53-58 | `$set` on an order: each of the ten fields takes the given value when given and keeps its old value otherwise; an empty update changes nothing |
| Persistence.ApplyStorePatch | database.py:70-76 | `$set` on a store: each of the six fields takes the given value when given and keeps its old value otherwise; an empty update changes nothing |
| Persistence.ApplyUserPatch | database.py:88-93 | `$set` on a user: each of the five fields takes the given value when given and keeps its old value otherwise; an empty update changes nothing |
| Persistence.OrderPatchIdempotent | database.py:53-58 | applying the same field update twice equals applying it once |
| Persistence.OrderPatchesCompose | database.py:53-58 | two successive updates equal one merged update, with the later values winning |
| Persistence.UnconstrainedMatchesAll | database.py:40-44 | an absent or empty filter lets every order through |
| Persistence.MatchingIds | database.py:40-46 | each id below the bound whose order matches both filters occurs exactly once; nothing else occurs |
| Persistence.PrependNewestFirst | database.py:46 | an id no older than every id of a newest-first sequence can go in front of it |
| Persistence.InsertNewestFirst | database.py:46 | inserting into a newest-first sequence keeps it newest first and adds exactly that id |
| Persistence.SortNewestFirst | database.py:46 | the sort by creation time, descending, is a permutation of its input |
| Persistence.Listing | database.py:40-46 | the full listing holds every matching order's id exactly once, only matching ids, newest first |
| Persistence.PageOfListing | database.py:46-47 | a page of the listing holds only stored, matching ids, newest first |
| Persistence.Page | database.py:46-47 | skip then limit: the length is min(limit, what remains after skip), and entry k is entry skip+k of the whole |
| Persistence.Fetch | database.py:46-47 | the records of the ids, in the same order |
| Persistence.DatabaseAttribute | database.py:6-93 | reaching a name on the database object succeeds exactly for the methods its class defines and the client and collections its constructor sets; any other name, such as `get_order_by_number`, fails with an attribute error |
| Persistence.StoreDocumentField | models.py:38-50 | reading a key of a stored store document succeeds exactly for the declared fields, with the record's `id` stored under its alias `_id`; any other key fails with a key error |
| Persistence.Database.constructor | database.py:14-28 | an empty database satisfies the unique indexes |
| Persistence.Database.GetOrder | database.py:30-31 | an order is found exactly when its id is stored |
| Persistence.Database.OrderIdByNumber | routers/voice.py:41 | the first order in natural order with that number, or none has it |
| Persistence.Database.OrderIdByShopifyId | database.py:16 | under the unique index, the one order holding a Shopify order id, or none |
| Persistence.Database.GetOrders | database.py:33-47 | at most `limit` orders, all matching, all stored, newest first, and exactly the page of the listing at `skip` |
| Persistence.Database.CreateOrder | database.py:49-51 | inserts under a fresh id, unless the Shopify order id is taken, in which case a duplicate-key error and no write |
| Persistence.Database.UpdateOrder | database.py:53-58 | an unknown id writes nothing and returns nothing; a clash on the unique index is refused; otherwise exactly that order is replaced by the updated one, which is returned |
| Persistence.Database.GetStore | database.py:60-61 | a store is found exactly when its id is stored |
| Persistence.Database.StoreIdByDomain | database.py:23 | under the unique index, the one store with that domain, or none |
| Persistence.Database.GetStoreByDomain | database.py:63-64 | found exactly when some store has that domain, and then it is that store |
| Persistence.Database.CreateStore | database.py:66-68 | inserts under a fresh id, unless the domain is taken |
| Persistence.Database.UpdateStore | database.py:70-76 | as for orders, with `updatedAt` always set to the current time |
| Persistence.Database.GetUser | database.py:78-79 | a user is found exactly when the id is stored |
| Persistence.Database.UserIdByEmail | database.py:27 | under the unique index, the one user with that email, or none |
| Persistence.Database.GetUserByEmail | database.py:81-82 | found exactly when some user has that email, and then it is that user |
| Persistence.Database.CreateUser | database.py:84-86 | inserts under a fresh id, unless the email is taken |
| Persistence.Database.UpdateUser | database.py:88-93 | as for orders, with the email index |
| VoiceService.MatchRoute | routers/voice.py:12 | a path is routed under a prefix only when it is that prefix, a slash and one non-empty segment |
| VoiceService.RequestPath | voice_service.py:29 | the path a callback URL requests is the URL up to its first '?' or '#', and the whole URL when it has neither |
| VoiceService.RoutePathMatches | voice_service.py:29 | a callback URL built for a routable order number (a segment with no '?', '#' or '%') requests the path routed back to that order number |
| VoiceService.FragmentOrderNumberUnrouted | voice_service.py:29 | the order number "#1001" is a path segment, but the gather action built for it requests the bare input path, which no route matches |
| VoiceService.QueryOrderNumberMisrouted | voice_service.py:95 | for the order number "A?b" the fallback redirect requests the welcome route of order "A" |
| VoiceService.IvrMenuAsWritten | voice_service.py:15-37 | the menu as written ends in a redirect to the bare welcome path, which no route matches |
| VoiceService.IvrMenu | voice_service.py:15-37 | the menu says the order prompt in ur-PK, gathers one digit within 10 s by POST, then redirects; for a routable order number the gather reaches this order's input route and the redirect this order's welcome route |
| VoiceService.InputReply | voice_service.py:59-97 | key 1 confirms and key 0 cancels; the reply dials support exactly for key 2 and re-prompts with a redirect exactly for any other input, which for a routable order number reaches this order's welcome route |
| VoiceService.MakeCall | voice_service.py:39-57 | a rejection becomes status "failed" with its error; an accepted call carries the provider's call id and status; both are stamped |
| VoiceService.CallStatusOf | voice_service.py:99-110 | a failed lookup yields nothing; otherwise the provider's id, status and duration, stamped |
| OrdersRouter.GetOrders | routers/orders.py:12-23 | an omitted skip is 0 and an omitted limit is 10; answers exactly when skip >= 0 and 1 <= limit <= 100, else 422; the answer is the database page |
| OrdersRouter.GetOrder | routers/orders.py:25-38 | the order, or 404 exactly when it is absent |
| OrdersRouter.InitiateCall | routers/orders.py:40-75 | an unknown order gives 404 and a call in progress gives 400, both without writes; otherwise the order is marked calling before the provider is asked, then gets the provider's status and the call time, and nothing else changes |
| OrdersRouter.MarkCalling | routers/orders.py:61 | a stored order gets call status "calling"; nothing else changes |
| OrdersRouter.RecordCall | routers/orders.py:69-73 | a stored order gets the call's status and timestamp as call status and last call time; nothing else changes |
| OrdersRouter.UpdateOrderStatus | routers/orders.py:77-94 | the intended handler (see "## Findings"): an unknown order gives 404 without a write; otherwise any string becomes the status and the updated order is returned |
| OrdersRouter.UpdateOrderStatusAsWritten | routers/orders.py:77-94 | as written, the `status` parameter hides the status-code module, so an unknown order ends in a failed attribute lookup (500) instead of 404, with nothing written; a known order is stored with the new status and returned, and nothing else changes |
| OrdersRouter.GetCallStatus | routers/orders.py:96-123 | 404 for an unknown order, 400 without a call id, 404 when the provider lookup fails, otherwise the provider's call id, status and duration, stamped with the time of the poll |
| VoiceRouter.WelcomeCall | routers/voice.py:12-21 | the corrected menu (see the voice_service.py:35 finding): the order prompt and the one-digit, 10 s, POST gather exactly as the source builds them, then a redirect to this order's welcome route; for a routable order number both callbacks reach that order |
| VoiceRouter.DigitStatus | routers/voice.py:52-57 | key 1 sets confirmed, 0 cancelled, 2 support, and nothing else sets a status |
| VoiceRouter.ReplyAgreesWithStatus | routers/voice.py:49-57 | what the caller hears agrees with what is written: confirmation, cancellation or support exactly when that status is set, a re-prompt exactly when none is |
| VoiceRouter.AfterInput | routers/voice.py:52-57 | the keypad changes only the status, and only for an accepted key |
| VoiceRouter.HandleIvrInput | routers/voice.py:23-59 | the intended handler: missing or empty input gives 400 and an unknown number gives 404, both without writes; otherwise the reply, and only the first order with that number has its status written |
| VoiceRouter.HandleIvrInputAsWritten | routers/voice.py:23-59 | as written, missing or empty input gives 400; any input then calls a database method that does not exist, so the answer is a failed attribute lookup (500) and nothing is written |
| VoiceRouter.StoreOf | routers/voice.py:67-78 | 404 "No store connected" without a link, 404 "Store not found" for a dangling one, else the store |
| VoiceRouter.GetVoiceSettings | routers/voice.py:61-80 | the settings of the caller's store, or the store errors |
| VoiceRouter.UpdateVoiceSettings | routers/voice.py:82-108 | the intended handler: the settings are replaced wholesale and the store's update time is stamped; nothing else changes |
| VoiceRouter.UpdateVoiceSettingsAsWritten | routers/voice.py:82-108 | as written, the store errors are answered as intended, but a found store has no `id` key, so the update fails (500) before anything is written |
| VoiceRouter.TestVoiceCall | routers/voice.py:110-136 | once the store is found, the result of calling the number for order "TEST-ORDER" |
| AuthRouter.Register | routers/auth.py:17-31 | a taken email gives 400 without a write; otherwise exactly one user is added, holding the hash of the password |
| AuthRouter.UserDict | models.py:52-58 | the dictionary of a User body (routers/auth.py:28) has exactly the declared fields of User as keys, so no "password" key, and carries the email and password hash sent |
| AuthRouter.RegisterAsWritten | routers/auth.py:17-31 | as written, registration never succeeds: a taken email gives 400, and a free one ends in a failed lookup of "password" in the User body (500) |
| AuthRouter.Login | routers/auth.py:33-52 | a token exactly when a user with that email exists and the password verifies; it is a bearer token for that email; otherwise 401 |
| AuthRouter.UpdatePatchFor | routers/auth.py:76-78 | exactly the fields the caller set are written; a password only as its hash |
| AuthRouter.UpdateUser | routers/auth.py:61-81 | a changed email another account holds gives 400 without a write; an unchanged email is not checked; otherwise the caller's account receives exactly the set fields |
| AuthRouter.UpdatePatchAsWritten | routers/auth.py:76-78 | as written, the email and `hashed_password` are always written, the latter exactly as sent and never hashed; the other fields are written exactly when the caller set them |
| AuthRouter.UpdateAsWrittenStoresPlaintext | routers/auth.py:76-78 | for the plaintext "secret", the code as written stores "secret", while the intended update stores its hash |
| Scenarios.CallAndConfirm | routers/orders.py:110-114 | a stored order that is called and then answered with key 1 is confirmed, carrying the provider's call status and the call time; a later poll of the call status answers 400 |

## Left out

- Persistence.Database.GetOrders: requires `limit >= 1`, because the driver reads a limit of 0 as "no limit". The only caller, the router, guarantees it.
- Persistence.SortNewestFirst: orders with equal creation times are kept in ascending id order. The sort at database.py:46 leaves their order unspecified, so this is a modelling choice, and Persistence.Database.GetOrders inherits it.
- Persistence.Database.UpdateStore: the source sets `updatedAt` in the caller's own dictionary. That aliasing is not modelled; the model stamps a copy.
- OrdersRouter.InitiateCall: requests are sequential in the model. Two concurrent calls for the same order can both pass the "calling" check in the source.
- Record keys are not modelled as strings. The failure to parse a malformed string as an ObjectId is not modelled, and neither is a `store_id` that is an empty string.
- The order `amount` (a float) is not modelled. Nor is the Pydantic validation of responses against the status enumerations.
- VoiceService.RoutePathMatches, VoiceService.IvrMenu, VoiceService.InputReply, VoiceRouter.WelcomeCall: the routing claims hold only for routable order numbers. The callback URLs carry the order number unescaped, and percent-decoding of the requested path is not modelled, so an order number containing '?', '#' or '%' is routed elsewhere or not at all; VoiceService.FragmentOrderNumberUnrouted and VoiceService.QueryOrderNumberMisrouted show two such cases.
- HTTP methods are not modelled: routes are matched on their paths only. So "no route matches" and "routed back to that order" are statements about paths; that the welcome route answers only GET (routers/voice.py:12) is not modelled.
- Voice settings values are text, numbers or flags. Other JSON values are not modelled.
- The TwiML serialisation, the spoken Urdu texts and the environment variables are not modelled. The support number is a parameter.
- Password hashing, password verification, token signing and token expiry are parameters or abstract claims. Authentication of the caller happens before the handlers and is not modelled; the caller's user record is an input.
- The profile update's writable fields are `email`, `hashed_password`, `store_id`, `is_active` and `created_at`. An `id` sent in the body is not modelled.
- Appending to the call history and scheduling retries are not modelled: the handlers in this core do neither.
- The Shopify webhooks and OAuth (`shopify_service.py`, `routers/shopify.py`, `shopify_config.py`) are not part of this model. Neither is the application set-up in `main.py`, apart from the `/api/voice` route prefix at main.py:47.

## Findings

| source | as written | input that shows it | evidently intended | confidence | as-written member | corrected member |
|---|---|---|---|---|---|---|
| routers/auth.py:29 | registration takes "password" out of the dictionary of a User body; User has no such field (models.py:52-58) | any registration with a free email | accept a plaintext password and store its hash | not executed | AuthRouter.RegisterAsWritten | AuthRouter.Register |
| routers/auth.py:76-78 | the profile body is a User, so "password" is never among its set fields, and `hashed_password` is stored as sent | a body with hashed_password "secret" | hash a supplied password before storing it | not executed | AuthRouter.UpdateAsWrittenStoresPlaintext | AuthRouter.UpdatePatchFor |
| voice_service.py:35 | the no-input fallback redirects to `/api/voice/welcome`; the only welcome route is `/api/voice/welcome/{order_number}` (routers/voice.py:12, main.py:47) | a caller who presses nothing | redirect to this order's welcome route, as the invalid-input branch does at voice_service.py:95 | not executed | VoiceService.IvrMenuAsWritten | VoiceService.IvrMenu |
| routers/orders.py:88 | the query parameter `status` (routers/orders.py:80) hides the imported status-code module, so `status.HTTP_404_NOT_FOUND` is looked up on a string | an unknown order id | answer 404 "Order not found" | not executed | OrdersRouter.UpdateOrderStatusAsWritten | OrdersRouter.UpdateOrderStatus |
| routers/voice.py:41 | the keypad handler calls `get_order_by_number`, which the database class (database.py) does not define | any request with a non-empty `Digits` | look the order up by its number and write the status for keys 0, 1 and 2 | not executed | VoiceRouter.HandleIvrInputAsWritten | VoiceRouter.HandleIvrInput |
| routers/voice.py:104 | the settings update addresses the store by `store["id"]`, but stored documents carry their key under `_id`. The lookup fails (500) before the write. A document that also held an `id` entry of None would not help: `ObjectId(None)` is a fresh id, the update matches nothing, and the final lookup on None fails | a caller whose linked store exists | replace the settings of that store and return them | not executed | VoiceRouter.UpdateVoiceSettingsAsWritten | VoiceRouter.UpdateVoiceSettings |

=== FILE: AuthRouter.dfy ===
/** The user-table rules of the authentication endpoints: registration,
    login and profile update. Password hashing, password verification and
    token signing are parameters (`hash`, `verify`) or abstract claims; the
    clock is the `now` parameter. */
module AuthRouter {
  import opened Outcomes
  import opened Models
  import opened Persistence

  const EmailTaken := "Email already registered"
  const BadCredentials := "Incorrect email or password"
  const BearerType := "bearer"

  // ---------------------------------------------------------------------------
  // Registration

  /** A registration request: the account fields and the plaintext password. */
  datatype RegisterRequest = RegisterRequest(
    email: string,
    password: string,
    storeId: Option<Id>,
    isActive: bool)

  /** Registers a new account. A taken email is refused and nothing is
      written; otherwise one user is added holding the hash of the password,
      never the password itself. */
  method Register(db: Database, req: RegisterRequest, hash: string -> string, now: Timestamp)
    returns (r: Result<User>)
    requires db.Valid()
    modifies db
    ensures db.Valid() && db.orders == old(db.orders) && db.stores == old(db.stores)
    ensures old(db.UserIdByEmail(req.email)).Some? ==>
              r == Err(BadRequest(EmailTaken)) && db.users == old(db.users)
    ensures old(db.UserIdByEmail(req.email)).None? ==>
              var u := User(req.email, hash(req.password), req.storeId, req.isActive, now);
              && r == Ok(u)
              && db.users == old(db.users)[|old(db.users)| := u]
  {
    if db.UserIdByEmail(req.email).Some? {
      r := Err(BadRequest(EmailTaken));
      return;
    }
    var u := User(req.email, hash(req.password), req.storeId, req.isActive, now);
    var created := db.CreateUser(u);
    r := Ok(created.value.1);
  }

  // ---------------------------------------------------------------------------
  // Registration as the source writes it

  /** A value of the dictionary a request body turns into. */
  datatype FieldValue = Str(text: string) | NonStr

  /** The fields User declares, under their declared names. */
  const UserFields: set<string> := {"id", "email", "hashed_password", "store_id", "is_active", "created_at"}

  /** The dictionary of a User body: one key per declared field of User.
      There is no "password" key, because User declares no such field. */
  function UserDict(body: User): (d: map<string, FieldValue>)
    ensures d.Keys == UserFields && "password" !in d
    ensures d["email"] == Str(body.email) && d["hashed_password"] == Str(body.hashedPassword)
  {
    map["id" := NonStr, "email" := Str(body.email), "hashed_password" := Str(body.hashedPassword),
        "store_id" := NonStr, "is_active" := NonStr, "created_at" := NonStr]
  }

  function TextOf(v: FieldValue): string {
    if v.Str? then v.text else ""
  }

  /** Registration as written: after the email check it takes "password" out
      of the body's dictionary and stores its hash. The body is a User, whose
      dictionary has no such key, so a free email ends in the failed lookup
      and nothing is stored. */
  function RegisterAsWritten(db: Database, body: User, hash: string -> string): (r: Result<User>)
    reads db
    requires db.Valid()
    ensures db.UserIdByEmail(body.email).Some? ==> r == Err(BadRequest(EmailTaken))
    ensures db.UserIdByEmail(body.email).None? ==> r == Err(KeyError("password"))
  {
    if db.UserIdByEmail(body.email).Some? then Err(BadRequest(EmailTaken))
    else
      MapResult(Lookup(UserDict(body), "password"),
                (v: FieldValue) => body.(hashedPassword := hash(TextOf(v))))
  }

  // ---------------------------------------------------------------------------
  // Login

  /** The claims a signed access token carries; the signature is not modelled. */
  datatype TokenClaims = TokenClaims(sub: string, expiresInMinutes: nat)

  datatype Token = Token(accessToken: TokenClaims, tokenType: string)

  /** Logs in with the form's username (the email) and password. It succeeds
      exactly when a user with that email exists and the password verifies
      against the stored hash; the token's subject is that email. */
  function Login(db: Database, username: string, password: string,
                 verify: (string, string) -> bool, expiresInMinutes: nat): (r: Result<Token>)
    reads db
    requires db.Valid()
    ensures r.Ok? <==> exists i :: i in db.users && db.users[i].email == username &&
                                   verify(password, db.users[i].hashedPassword)
    ensures r.Ok? ==> r.value == Token(TokenClaims(username, expiresInMinutes), BearerType)
    ensures r.Err? ==> r.error == Unauthorized(BadCredentials)
  {
    match db.UserIdByEmail(username)
    case None => Err(Unauthorized(BadCredentials))
    case Some(id) =>
      var user := db.users[id];
      if verify(password, user.hashedPassword) then Ok(Token(TokenClaims(user.email, expiresInMinutes), BearerType))
      else Err(Unauthorized(BadCredentials))
  }

  // ---------------------------------------------------------------------------
  // Profile update

  /** A profile update: the email is always sent; every other field is
      present only when the caller set it. */
  datatype UserUpdate = UserUpdate(
    email: string,
    password: Option<string>,
    storeId: Option<Option<Id>>,
    isActive: Option<bool>,
    createdAt: Option<Timestamp>)

  /** The fields written for an update: exactly the ones the caller set, with
      a password replaced by its hash. */
  function UpdatePatchFor(req: UserUpdate, hash: string -> string): (p: UserPatch)
    ensures p.email == Some(req.email)
    ensures p.hashedPassword.Some? <==> req.password.Some?
    ensures req.password.Some? ==> p.hashedPassword.value == hash(req.password.value)
    ensures p.storeId == req.storeId && p.isActive == req.isActive && p.createdAt == req.createdAt
  {
    UserPatch(Some(req.email),
              if req.password.Some? then Some(hash(req.password.value)) else None,
              req.storeId, req.isActive, req.createdAt)
  }

  /** Updates the caller's own account. A changed email that another account
      already holds is refused and nothing is written; an unchanged email is
      not checked. Otherwise exactly the fields the caller set are replaced. */
  method UpdateUser(db: Database, currentId: Id, req: UserUpdate, hash: string -> string)
    returns (r: Result<User>)
    requires db.Valid() && currentId in db.users
    modifies db
    ensures db.Valid() && db.orders == old(db.orders) && db.stores == old(db.stores)
    ensures req.email != old(db.users[currentId].email) && old(db.UserIdByEmail(req.email)).Some? ==>
              r == Err(BadRequest(EmailTaken)) && db.users == old(db.users)
    ensures req.email == old(db.users[currentId].email) || old(db.UserIdByEmail(req.email)).None? ==>
              var updated := ApplyUserPatch(old(db.users[currentId]), UpdatePatchFor(req, hash));
              && r == Ok(updated)
              && db.users == old(db.users)[currentId := updated]
  {
    var current := db.users[currentId];
    if req.email != current.email && db.UserIdByEmail(req.email).Some? {
      r := Err(BadRequest(EmailTaken));
      return;
    }
    var updated := db.UpdateUser(currentId, UpdatePatchFor(req, hash));
    r := Ok(updated.value.value);
  }

  // ---------------------------------------------------------------------------
  // Profile update as the source writes it

  /** The update data as written: the body is a User, whose email and
      hashed_password are required and so always set, and whose other fields
      are written when named in `setKeys`. A "password" entry would be hashed
      into hashed_password, but the body's dictionary never has one, so
      `hashed_password` is stored exactly as sent. */
  function UpdatePatchAsWritten(body: User, setKeys: set<string>, hash: string -> string): (p: UserPatch)
    ensures p.email == Some(body.email)
    ensures p.hashedPassword == Some(body.hashedPassword)
    ensures p.storeId.Some? <==> "store_id" in setKeys
    ensures p.isActive.Some? <==> "is_active" in setKeys
    ensures p.createdAt.Some? <==> "created_at" in setKeys
    ensures p.storeId.Some? ==> p.storeId.value == body.storeId
    ensures p.isActive.Some? ==> p.isActive.value == body.isActive
    ensures p.createdAt.Some? ==> p.createdAt.value == body.createdAt
  {
    var hashed := MapResult(Lookup(UserDict(body), "password"), (v: FieldValue) => hash(TextOf(v)));
    UserPatch(
      Some(body.email),
      Some(ValueOr(hashed, body.hashedPassword)),
      if "store_id" in setKeys then Some(body.storeId) else None,
      if "is_active" in setKeys then Some(body.isActive) else None,
      if "created_at" in setKeys then Some(body.createdAt) else None)
  }

  /** A concrete case: the caller sends the plaintext "secret"; as written it
      is stored verbatim, while the intended update stores its hash. */
  lemma UpdateAsWrittenStoresPlaintext()
    ensures var hash := (p: string) => "bcrypt:" + p;
            var body := User("a@example.com", "secret", None, true, 0);
            && UpdatePatchAsWritten(body, {}, hash).hashedPassword == Some("secret")
            && UpdatePatchFor(UserUpdate("a@example.com", Some("secret"), None, None, None), hash).hashedPassword
               == Some("bcrypt:secret")
  {
    var hash := (p: string) => "bcrypt:" + p;
    var body := User("a@example.com", "secret", None, true, 0);
    assert hash("secret") == "bcrypt:secret";
  }
}

=== FILE: Models.dfy ===
/** Records and enumerations of the order-call system: the business status and
    call status enumerations and the Order, Store and User records with their
    defaults. Identifiers are abstract store keys and clock readings are
    abstract timestamps, both given as naturals. */
module Models {
  import opened Outcomes

  type Id = nat
  type Timestamp = nat

  // ---------------------------------------------------------------------------
  // OrderStatus: the business disposition of an order

  datatype OrderStatus = Pending | Called | Confirmed | Cancelled | Support

  /** The string each status is stored and compared as. */
  function OrderStatusName(s: OrderStatus): string {
    match s
    case Pending => "pending"
    case Called => "called"
    case Confirmed => "confirmed"
    case Cancelled => "cancelled"
    case Support => "support"
  }

  const OrderStatusNames: set<string> := {"pending", "called", "confirmed", "cancelled", "support"}

  /** Reads a stored string back as a status; strings outside the enumeration have none. */
  function ParseOrderStatus(x: string): (r: Option<OrderStatus>)
    ensures r.Some? <==> x in OrderStatusNames
    ensures r.Some? ==> OrderStatusName(r.value) == x
  {
    if x == "pending" then Some(Pending)
    else if x == "called" then Some(Called)
    else if x == "confirmed" then Some(Confirmed)
    else if x == "cancelled" then Some(Cancelled)
    else if x == "support" then Some(Support)
    else None
  }

  /** The enumeration is exactly the five names, and each name denotes one status. */
  lemma OrderStatusIsExactly(x: string)
    ensures x in OrderStatusNames <==> exists s :: OrderStatusName(s) == x
    ensures forall s :: OrderStatusName(s) == x ==> ParseOrderStatus(x) == Some(s)
  {
    if x in OrderStatusNames {
      var s := ParseOrderStatus(x).value;
      assert OrderStatusName(s) == x;
    }
  }

  // ---------------------------------------------------------------------------
  // CallStatus: the disposition of the telephony leg

  datatype CallStatus = NotCalled | Calling | Completed | Failed

  function CallStatusName(c: CallStatus): string {
    match c
    case NotCalled => "not_called"
    case Calling => "calling"
    case Completed => "completed"
    case Failed => "failed"
  }

  const CallStatusNames: set<string> := {"not_called", "calling", "completed", "failed"}

  function ParseCallStatus(x: string): (r: Option<CallStatus>)
    ensures r.Some? <==> x in CallStatusNames
    ensures r.Some? ==> CallStatusName(r.value) == x
  {
    if x == "not_called" then Some(NotCalled)
    else if x == "calling" then Some(Calling)
    else if x == "completed" then Some(Completed)
    else if x == "failed" then Some(Failed)
    else None
  }

  /** The enumeration is exactly the four names, and each name denotes one call status. */
  lemma CallStatusIsExactly(x: string)
    ensures x in CallStatusNames <==> exists c :: CallStatusName(c) == x
    ensures forall c :: CallStatusName(c) == x ==> ParseCallStatus(x) == Some(c)
  {
    if x in CallStatusNames {
      var c := ParseCallStatus(x).value;
      assert CallStatusName(c) == x;
    }
  }

  // ---------------------------------------------------------------------------
  // Records

  /** One entry of an order's call history: the timestamp and status are
      always present, the duration and the recorded response are optional. */
  datatype CallHistory = CallHistory(
    timestamp: Timestamp,
    status: string,
    duration: Option<int>,
    response: Option<string>)

  /** An order as the store holds it. `status` and `callStatus` are kept as the
      strings written to the store, because a manual override may write any
      string and a placed call writes the provider's own status word.
      `callSid` is the optional `call_sid` key the orders router reads; the
      record declaration itself does not list it. The monetary amount is not
      modelled. */
  datatype Order = Order(
    shopifyOrderId: string,
    orderNumber: string,
    customerName: string,
    customerPhone: string,
    status: string,
    callStatus: string,
    createdAt: Timestamp,
    lastCallAt: Option<Timestamp>,
    callHistory: seq<CallHistory>,
    callSid: Option<string>)

  /** A new order as the record declaration builds it from its required fields. */
  function NewOrder(shopifyOrderId: string, orderNumber: string, customerName: string,
                    customerPhone: string, now: Timestamp): (o: Order)
    ensures ParseOrderStatus(o.status) == Some(Pending)
    ensures ParseCallStatus(o.callStatus) == Some(NotCalled)
    ensures o.lastCallAt == None && o.callHistory == [] && o.callSid == None
    ensures o.createdAt == now
    ensures o.shopifyOrderId == shopifyOrderId && o.orderNumber == orderNumber
    ensures o.customerName == customerName && o.customerPhone == customerPhone
  {
    Order(shopifyOrderId, orderNumber, customerName, customerPhone,
          OrderStatusName(Pending), CallStatusName(NotCalled), now, None, [], None)
  }

  /** A value of the free-form voice-settings dictionary. */
  datatype SettingValue = Text(text: string) | Number(number: int) | Flag(flag: bool)

  type VoiceSettings = map<string, SettingValue>

  /** A connected storefront. */
  datatype Store = Store(
    shopifyDomain: string,
    accessToken: string,
    webhookSecret: string,
    voiceSettings: VoiceSettings,
    createdAt: Timestamp,
    updatedAt: Timestamp)

  /** A new store as the record declaration builds it: default voice settings
      (Urdu, default voice, three retries 300 seconds apart) and the two
      timestamps, each read from the clock by its own default factory. */
  function NewStore(shopifyDomain: string, accessToken: string, webhookSecret: string,
                    created: Timestamp, updated: Timestamp): (s: Store)
    ensures s.voiceSettings.Keys == {"language", "voiceId", "retryAttempts", "retryDelay"}
    ensures s.voiceSettings["language"] == Text("ur")
    ensures s.voiceSettings["voiceId"] == Text("default")
    ensures s.voiceSettings["retryAttempts"] == Number(3)
    ensures s.voiceSettings["retryDelay"] == Number(300)
    ensures s.createdAt == created && s.updatedAt == updated
    ensures s.shopifyDomain == shopifyDomain && s.accessToken == accessToken
    ensures s.webhookSecret == webhookSecret
  {
    var settings := map["language" := Text("ur"), "voiceId" := Text("default"),
                        "retryAttempts" := Number(3), "retryDelay" := Number(300)];
    Store(shopifyDomain, accessToken, webhookSecret, settings, created, updated)
  }

  /** A user account; only the password hash is ever kept. */
  datatype User = User(
    email: string,
    hashedPassword: string,
    storeId: Option<Id>,
    isActive: bool,
    createdAt: Timestamp)

  /** A new user as the record declaration builds it: active and not yet
      connected to a store. */
  function NewUser(email: string, hashedPassword: string, now: Timestamp): (u: User)
    ensures u.isActive && u.storeId == None
    ensures u.email == email && u.hashedPassword == hashedPassword && u.createdAt == now
  {
    User(email, hashedPassword, None, true, now)
  }
}

=== FILE: OrdersRouter.dfy ===
/** The authenticated order endpoints: paginated listing, one order, placing
    a call, the manual status override and the call-status poll. The telephony
    provider is a parameter: `provider(to, orderNumber)` is its answer to a
    call-placement request, `lookup(callSid)` its answer to a status fetch.
    Authentication itself happens before these handlers run and is not
    modelled; no handler checks which store an order belongs to. */
module OrdersRouter {
  import opened Outcomes
  import opened Models
  import opened Persistence
  import opened VoiceService

  const CallInProgress := "Call already in progress"
  const NoCallInitiated := "No call initiated for this order"
  const CallNotFound := "Call not found"
  const InvalidPage := "skip must be >= 0 and limit between 1 and 100"

  const MaxLimit := 100
  const DefaultSkip := 0
  const DefaultLimit := 10

  /** A query parameter's value, or its default when the request omits it. */
  function QueryValue(given: Option<int>, default: int): (v: int)
    ensures given.Some? ==> v == given.value
    ensures given.None? ==> v == default
  {
    if given.Some? then given.value else default
  }

  /** Lists orders after validating the query parameters: `skip` (0 when
      omitted) at least 0 and `limit` (10 when omitted) between 1 and 100;
      anything else is refused before the store is read. */
  function GetOrders(db: Database, skip: Option<int>, limit: Option<int>,
                     status: Option<string>, callStatus: Option<string>)
    : (r: Result<seq<Order>>)
    reads db
    requires db.Valid()
    ensures var s, l := QueryValue(skip, DefaultSkip), QueryValue(limit, DefaultLimit);
            && (r.Ok? <==> 0 <= s && 1 <= l <= MaxLimit)
            && (r.Err? ==> r.error == Unprocessable(InvalidPage))
            && (r.Ok? ==> |r.value| <= l)
            && (r.Ok? ==> forall o :: o in r.value ==> Matches(o, status, callStatus) && o in db.orders.Values)
            && (r.Ok? ==> r.value == db.GetOrders(s, l, status, callStatus))
    ensures skip.None? && limit.None? ==> r == Ok(db.GetOrders(DefaultSkip, DefaultLimit, status, callStatus))
  {
    var s, l := QueryValue(skip, DefaultSkip), QueryValue(limit, DefaultLimit);
    if s < 0 || l < 1 || l > MaxLimit then Err(Unprocessable(InvalidPage))
    else Ok(db.GetOrders(s, l, status, callStatus))
  }

  function GetOrder(db: Database, id: Id): (r: Result<Order>)
    reads db
    ensures r.Ok? <==> id in db.orders
    ensures r.Ok? ==> r.value == db.orders[id]
    ensures r.Err? ==> r.error == NotFound(OrderNotFound)
  {
    match db.GetOrder(id)
    case Some(o) => Ok(o)
    case None => Err(NotFound(OrderNotFound))
  }

  /** Places a call for an order. An unknown order or one whose call status
      is already "calling" is refused and nothing is written. Otherwise the
      order's call status is first set to "calling" (`dialled` is the order as
      stored when the provider is asked), then the provider's answer is
      recorded as the call status and its timestamp as `lastCallAt`; no other
      field, and no other record, changes. */
  method InitiateCall(db: Database, id: Id, provider: (string, string) -> ProviderOutcome, now: Timestamp)
    returns (r: Result<CallResult>, ghost dialled: Option<Order>)
    requires db.Valid()
    modifies db
    ensures db.Valid() && db.stores == old(db.stores) && db.users == old(db.users)
    ensures id !in old(db.orders) ==>
              r == Err(NotFound(OrderNotFound)) && db.orders == old(db.orders)
    ensures id in old(db.orders) && old(db.orders[id].callStatus) == CallStatusName(Calling) ==>
              r == Err(BadRequest(CallInProgress)) && db.orders == old(db.orders)
    ensures id in old(db.orders) && old(db.orders[id].callStatus) != CallStatusName(Calling) ==>
              var before := old(db.orders[id]);
              var result := MakeCall(provider(before.customerPhone, before.orderNumber), now);
              && r == Ok(result)
              && dialled == Some(before.(callStatus := CallStatusName(Calling)))
              && db.orders == old(db.orders)[id := before.(callStatus := result.status, lastCallAt := Some(now))]
  {
    dialled := None;
    var found := db.GetOrder(id);
    if found.None? {
      r := Err(NotFound(OrderNotFound));
      return;
    }
    var order := found.value;
    if order.callStatus == CallStatusName(Calling) {
      r := Err(BadRequest(CallInProgress));
      return;
    }
    MarkCalling(db, id);
    dialled := db.GetOrder(id);
    var result := MakeCall(provider(order.customerPhone, order.orderNumber), now);
    RecordCall(db, id, result);
    r := Ok(result);
  }

  /** Marks a stored order as being called; nothing else changes. */
  method MarkCalling(db: Database, id: Id)
    requires db.Valid() && id in db.orders
    modifies db
    ensures db.Valid() && db.stores == old(db.stores) && db.users == old(db.users)
    ensures db.orders == old(db.orders)[id := old(db.orders[id]).(callStatus := CallStatusName(Calling))]
  {
    var marking := NoOrderChange.(callStatus := Some(CallStatusName(Calling)));
    assert ApplyOrderPatch(db.orders[id], marking) == db.orders[id].(callStatus := CallStatusName(Calling));
    var _ := db.UpdateOrder(id, marking);
  }

  /** Records a call's outcome on a stored order: its status becomes the
      order's call status and its timestamp the last call time; nothing else
      changes. */
  method RecordCall(db: Database, id: Id, result: CallResult)
    requires db.Valid() && id in db.orders
    modifies db
    ensures db.Valid() && db.stores == old(db.stores) && db.users == old(db.users)
    ensures db.orders == old(db.orders)[id := old(db.orders[id]).(callStatus := result.status, lastCallAt := Some(result.timestamp))]
  {
    var recording := NoOrderChange.(callStatus := Some(result.status), lastCallAt := Some(Some(result.timestamp)));
    assert ApplyOrderPatch(db.orders[id], recording)
        == db.orders[id].(callStatus := result.status, lastCallAt := Some(result.timestamp));
    var _ := db.UpdateOrder(id, recording);
  }

  /** The manual override: any string is stored as the status, with no check
      against the status enumeration. */
  method UpdateOrderStatus(db: Database, id: Id, status: string) returns (r: Result<Order>)
    requires db.Valid()
    modifies db
    ensures db.Valid() && db.stores == old(db.stores) && db.users == old(db.users)
    ensures id !in old(db.orders) ==> r == Err(NotFound(OrderNotFound)) && db.orders == old(db.orders)
    ensures id in old(db.orders) ==>
              r == Ok(old(db.orders[id]).(status := status)) &&
              db.orders == old(db.orders)[id := old(db.orders[id]).(status := status)]
  {
    var found := db.GetOrder(id);
    if found.None? {
      r := Err(NotFound(OrderNotFound));
      return;
    }
    var updated := db.UpdateOrder(id, NoOrderChange.(status := Some(status)));
    r := Ok(updated.value.value);
  }

  /** The manual override as written. Its query parameter is named `status`
      and hides the imported module of HTTP status codes, so the branch for
      an unknown order asks a string for `HTTP_404_NOT_FOUND` and fails
      before answering, with nothing written; a stored order takes the new
      status exactly as in the intended override. */
  method UpdateOrderStatusAsWritten(db: Database, id: Id, status: string) returns (r: Result<Order>)
    requires db.Valid()
    modifies db
    ensures db.Valid() && db.stores == old(db.stores) && db.users == old(db.users)
    ensures id !in old(db.orders) ==> r == Err(AttributeError("HTTP_404_NOT_FOUND")) && db.orders == old(db.orders)
    ensures id in old(db.orders) ==>
              r == Ok(old(db.orders[id]).(status := status)) &&
              db.orders == old(db.orders)[id := old(db.orders[id]).(status := status)]
  {
    var found := db.GetOrder(id);
    if found.None? {
      r := Err(AttributeError("HTTP_404_NOT_FOUND"));
      return;
    }
    var updated := db.UpdateOrder(id, NoOrderChange.(status := Some(status)));
    r := Ok(updated.value.value);
  }

  /** True when the order carries a non-empty call id. */
  predicate HasCallSid(o: Order) {
    o.callSid.Some? && o.callSid.value != ""
  }

  /** Polls the provider for the order's call; reads the store and writes nothing. */
  function GetCallStatus(db: Database, id: Id, lookup: string -> ProviderLookup, now: Timestamp)
    : (r: Result<CallReport>)
    reads db
    ensures id !in db.orders ==> r == Err(NotFound(OrderNotFound))
    ensures id in db.orders && !HasCallSid(db.orders[id]) ==> r == Err(BadRequest(NoCallInitiated))
    ensures id in db.orders && HasCallSid(db.orders[id]) ==>
              var answer := lookup(db.orders[id].callSid.value);
              && (r.Ok? <==> answer.Fetched?)
              && (r.Ok? ==> r.value == CallReport(answer.sid, answer.status, answer.duration, now))
              && (r.Err? ==> r.error == NotFound(CallNotFound))
  {
    match db.GetOrder(id)
    case None => Err(NotFound(OrderNotFound))
    case Some(o) =>
      if !HasCallSid(o) then Err(BadRequest(NoCallInitiated))
      else
        match CallStatusOf(lookup(o.callSid.value), now)
        case None => Err(NotFound(CallNotFound))
        case Some(report) => Ok(report)
  }
}

=== FILE: Outcomes.dfy ===
/** Optional values and request outcomes shared by every layer of the model. */
module Outcomes {

  datatype Option<+T> = None | Some(value: T)

  /** The ways a request or a store operation can end without a value.
      The HTTP status each one is answered with is named beside it. */
  datatype Error =
    | NotFound(detail: string)       // 404
    | BadRequest(detail: string)     // 400
    | Unauthorized(detail: string)   // 401
    | Unprocessable(detail: string)  // 422, query-parameter validation
    | DuplicateKey(index: string)    // the driver's duplicate-key error on a unique index
    | KeyError(key: string)          // a dictionary lookup on a missing key (answered 500)
    | AttributeError(name: string)   // an attribute the object does not have (answered 500)

  datatype Result<+T> = Ok(value: T) | Err(error: Error)

  /** The detail both the order and the voice endpoints answer an unknown
      order with. */
  const OrderNotFound := "Order not found"

  /** A step that yields nothing but may fail: a lookup that either succeeds
      or raises. */
  type Check = Result<()>

  /** `next`, unless `first` failed, in which case its error. */
  function Then<T>(first: Check, next: Result<T>): (r: Result<T>)
    ensures first.Err? ==> r == Err(first.error)
    ensures first.Ok? ==> r == next
  {
    if first.Err? then Err(first.error) else next
  }

  /** `f` applied to the value of `r`, or the error of `r`. */
  function MapResult<A, B>(r: Result<A>, f: A -> B): (s: Result<B>)
    ensures r.Err? ==> s == Err(r.error)
    ensures r.Ok? ==> s == Ok(f(r.value))
  {
    if r.Err? then Err(r.error) else Ok(f(r.value))
  }

  /** The value of `r`, or `default` when `r` failed. */
  function ValueOr<T>(r: Result<T>, default: T): (v: T)
    ensures r.Ok? ==> v == r.value
    ensures r.Err? ==> v == default
  {
    if r.Ok? then r.value else default
  }

  /** Looks `key` up in a dictionary, as `d[key]` or `d.pop(key)` does. */
  function Lookup<V>(d: map<string, V>, key: string): (r: Result<V>)
    ensures r.Ok? <==> key in d
    ensures r.Ok? ==> r.value == d[key]
    ensures r.Err? ==> r.error == KeyError(key)
  {
    if key in d then Ok(d[key]) else Err(KeyError(key))
  }
}

=== FILE: Persistence.dfy ===
/** The persistence layer: three collections (orders, stores, users) keyed by
    store-assigned ids, with the unique indexes on the external order id, the
    storefront domain and the user email, field-level replacement updates, and
    the filtered, paginated, newest-first order listing.

    Ids are handed out in insertion order (a new record gets the current size
    of its collection), so "natural order" is ascending id order. */
module Persistence {
  import opened Outcomes
  import opened Models

  // ---------------------------------------------------------------------------
  // Collections and their invariants

  /** The keys of `m` are exactly 0 .. |m|-1: records are never deleted and
      every insertion takes the next id. */
  ghost predicate Dense<T>(m: map<Id, T>) {
    forall i: Id :: i in m <==> i < |m|
  }

  ghost predicate UniqueShopifyOrderIds(m: map<Id, Order>) {
    forall i, j :: i in m && j in m && m[i].shopifyOrderId == m[j].shopifyOrderId ==> i == j
  }

  ghost predicate UniqueDomains(m: map<Id, Store>) {
    forall i, j :: i in m && j in m && m[i].shopifyDomain == m[j].shopifyDomain ==> i == j
  }

  ghost predicate UniqueEmails(m: map<Id, User>) {
    forall i, j :: i in m && j in m && m[i].email == m[j].email ==> i == j
  }

  /** Replacing a store with one whose domain no other store holds keeps the
      keys dense and the domains unique. */
  lemma ReplaceKeepsStoresValid(m: map<Id, Store>, id: Id, s: Store)
    requires Dense(m) && UniqueDomains(m) && id in m
    requires forall j :: j in m && j != id ==> m[j].shopifyDomain != s.shopifyDomain
    ensures Dense(m[id := s]) && UniqueDomains(m[id := s])
  {
    assert m[id := s].Keys == m.Keys;
  }

  /** Storing a store under the next id, with a domain no store holds, keeps
      the keys dense and the domains unique. */
  lemma InsertKeepsStoresValid(m: map<Id, Store>, s: Store)
    requires Dense(m) && UniqueDomains(m)
    requires forall j :: j in m ==> m[j].shopifyDomain != s.shopifyDomain
    ensures Dense(m[|m| := s]) && UniqueDomains(m[|m| := s])
  {
    assert |m| !in m;
  }

  /** Replacing an order with one whose external id no other order holds
      keeps the keys dense and the external ids unique. */
  lemma ReplaceKeepsOrdersValid(m: map<Id, Order>, id: Id, o: Order)
    requires Dense(m) && UniqueShopifyOrderIds(m) && id in m
    requires forall j :: j in m && j != id ==> m[j].shopifyOrderId != o.shopifyOrderId
    ensures Dense(m[id := o]) && UniqueShopifyOrderIds(m[id := o])
  {
    assert m[id := o].Keys == m.Keys;
  }

  /** Storing an order under the next id, with an external id no order holds,
      keeps the keys dense and the external ids unique. */
  lemma InsertKeepsOrdersValid(m: map<Id, Order>, o: Order)
    requires Dense(m) && UniqueShopifyOrderIds(m)
    requires forall j :: j in m ==> m[j].shopifyOrderId != o.shopifyOrderId
    ensures Dense(m[|m| := o]) && UniqueShopifyOrderIds(m[|m| := o])
  {
    assert |m| !in m;
  }

  /** Replacing a user with one whose email no other user holds keeps the keys
      dense and the emails unique. */
  lemma ReplaceKeepsUsersValid(m: map<Id, User>, id: Id, u: User)
    requires Dense(m) && UniqueEmails(m) && id in m
    requires forall j :: j in m && j != id ==> m[j].email != u.email
    ensures Dense(m[id := u]) && UniqueEmails(m[id := u])
  {
    assert m[id := u].Keys == m.Keys;
  }

  /** Storing a user under the next id, with an email no user holds, keeps the
      keys dense and the emails unique. */
  lemma InsertKeepsUsersValid(m: map<Id, User>, u: User)
    requires Dense(m) && UniqueEmails(m)
    requires forall j :: j in m ==> m[j].email != u.email
    ensures Dense(m[|m| := u]) && UniqueEmails(m[|m| := u])
  {
    assert |m| !in m;
  }

  /** The first id in [i, n) satisfying `p`, scanning in natural order. */
  function FirstFrom(i: nat, n: nat, p: Id -> bool): (r: Option<Id>)
    requires i <= n
    decreases n - i
    ensures r.Some? ==> i <= r.value < n && p(r.value) && forall j :: i <= j < r.value ==> !p(j)
    ensures r.None? ==> forall j :: i <= j < n ==> !p(j)
  {
    if i == n then None
    else if p(i) then Some(i)
    else FirstFrom(i + 1, n, p)
  }

  // ---------------------------------------------------------------------------
  // Field-level replacement ($set): a Some field replaces the stored value,
  // a None field leaves it as it is.

  function Pick<T>(update: Option<T>, current: T): T {
    if update.Some? then update.value else current
  }

  datatype OrderPatch = OrderPatch(
    shopifyOrderId: Option<string>,
    orderNumber: Option<string>,
    customerName: Option<string>,
    customerPhone: Option<string>,
    status: Option<string>,
    callStatus: Option<string>,
    createdAt: Option<Timestamp>,
    lastCallAt: Option<Option<Timestamp>>,
    callHistory: Option<seq<CallHistory>>,
    callSid: Option<Option<string>>)

  const NoOrderChange := OrderPatch(None, None, None, None, None, None, None, None, None, None)

  function ApplyOrderPatch(o: Order, p: OrderPatch): (r: Order)
    ensures p == NoOrderChange ==> r == o
    ensures p.shopifyOrderId.Some? ==> r.shopifyOrderId == p.shopifyOrderId.value
    ensures p.shopifyOrderId.None? ==> r.shopifyOrderId == o.shopifyOrderId
    ensures p.orderNumber.Some? ==> r.orderNumber == p.orderNumber.value
    ensures p.orderNumber.None? ==> r.orderNumber == o.orderNumber
    ensures p.customerName.Some? ==> r.customerName == p.customerName.value
    ensures p.customerName.None? ==> r.customerName == o.customerName
    ensures p.customerPhone.Some? ==> r.customerPhone == p.customerPhone.value
    ensures p.customerPhone.None? ==> r.customerPhone == o.customerPhone
    ensures p.status.Some? ==> r.status == p.status.value
    ensures p.status.None? ==> r.status == o.status
    ensures p.callStatus.Some? ==> r.callStatus == p.callStatus.value
    ensures p.callStatus.None? ==> r.callStatus == o.callStatus
    ensures p.createdAt.Some? ==> r.createdAt == p.createdAt.value
    ensures p.createdAt.None? ==> r.createdAt == o.createdAt
    ensures p.lastCallAt.Some? ==> r.lastCallAt == p.lastCallAt.value
    ensures p.lastCallAt.None? ==> r.lastCallAt == o.lastCallAt
    ensures p.callHistory.Some? ==> r.callHistory == p.callHistory.value
    ensures p.callHistory.None? ==> r.callHistory == o.callHistory
    ensures p.callSid.Some? ==> r.callSid == p.callSid.value
    ensures p.callSid.None? ==> r.callSid == o.callSid
  {
    Order(Pick(p.shopifyOrderId, o.shopifyOrderId), Pick(p.orderNumber, o.orderNumber),
          Pick(p.customerName, o.customerName), Pick(p.customerPhone, o.customerPhone),
          Pick(p.status, o.status), Pick(p.callStatus, o.callStatus),
          Pick(p.createdAt, o.createdAt), Pick(p.lastCallAt, o.lastCallAt),
          Pick(p.callHistory, o.callHistory), Pick(p.callSid, o.callSid))
  }

  /** `q` laid over `p`: what one `$set` with `p` followed by one with `q` writes. */
  function MergeOrderPatches(p: OrderPatch, q: OrderPatch): OrderPatch {
    OrderPatch(
      if q.shopifyOrderId.Some? then q.shopifyOrderId else p.shopifyOrderId,
      if q.orderNumber.Some? then q.orderNumber else p.orderNumber,
      if q.customerName.Some? then q.customerName else p.customerName,
      if q.customerPhone.Some? then q.customerPhone else p.customerPhone,
      if q.status.Some? then q.status else p.status,
      if q.callStatus.Some? then q.callStatus else p.callStatus,
      if q.createdAt.Some? then q.createdAt else p.createdAt,
      if q.lastCallAt.Some? then q.lastCallAt else p.lastCallAt,
      if q.callHistory.Some? then q.callHistory else p.callHistory,
      if q.callSid.Some? then q.callSid else p.callSid)
  }

  /** Replacing the same fields twice is the same as once. */
  lemma OrderPatchIdempotent(o: Order, p: OrderPatch)
    ensures ApplyOrderPatch(ApplyOrderPatch(o, p), p) == ApplyOrderPatch(o, p)
  {
  }

  /** Two successive field replacements are one replacement with the later
      values winning. */
  lemma OrderPatchesCompose(o: Order, p: OrderPatch, q: OrderPatch)
    ensures ApplyOrderPatch(ApplyOrderPatch(o, p), q) == ApplyOrderPatch(o, MergeOrderPatches(p, q))
  {
  }

  datatype StorePatch = StorePatch(
    shopifyDomain: Option<string>,
    accessToken: Option<string>,
    webhookSecret: Option<string>,
    voiceSettings: Option<VoiceSettings>,
    createdAt: Option<Timestamp>,
    updatedAt: Option<Timestamp>)

  const NoStoreChange := StorePatch(None, None, None, None, None, None)

  function ApplyStorePatch(s: Store, p: StorePatch): (r: Store)
    ensures p == NoStoreChange ==> r == s
    ensures p.shopifyDomain.Some? ==> r.shopifyDomain == p.shopifyDomain.value
    ensures p.shopifyDomain.None? ==> r.shopifyDomain == s.shopifyDomain
    ensures p.accessToken.Some? ==> r.accessToken == p.accessToken.value
    ensures p.accessToken.None? ==> r.accessToken == s.accessToken
    ensures p.webhookSecret.Some? ==> r.webhookSecret == p.webhookSecret.value
    ensures p.webhookSecret.None? ==> r.webhookSecret == s.webhookSecret
    ensures p.voiceSettings.Some? ==> r.voiceSettings == p.voiceSettings.value
    ensures p.voiceSettings.None? ==> r.voiceSettings == s.voiceSettings
    ensures p.createdAt.Some? ==> r.createdAt == p.createdAt.value
    ensures p.createdAt.None? ==> r.createdAt == s.createdAt
    ensures p.updatedAt.Some? ==> r.updatedAt == p.updatedAt.value
    ensures p.updatedAt.None? ==> r.updatedAt == s.updatedAt
  {
    Store(Pick(p.shopifyDomain, s.shopifyDomain), Pick(p.accessToken, s.accessToken),
          Pick(p.webhookSecret, s.webhookSecret), Pick(p.voiceSettings, s.voiceSettings),
          Pick(p.createdAt, s.createdAt), Pick(p.updatedAt, s.updatedAt))
  }

  datatype UserPatch = UserPatch(
    email: Option<string>,
    hashedPassword: Option<string>,
    storeId: Option<Option<Id>>,
    isActive: Option<bool>,
    createdAt: Option<Timestamp>)

  const NoUserChange := UserPatch(None, None, None, None, None)

  function ApplyUserPatch(u: User, p: UserPatch): (r: User)
    ensures p == NoUserChange ==> r == u
    ensures p.email.Some? ==> r.email == p.email.value
    ensures p.email.None? ==> r.email == u.email
    ensures p.hashedPassword.Some? ==> r.hashedPassword == p.hashedPassword.value
    ensures p.hashedPassword.None? ==> r.hashedPassword == u.hashedPassword
    ensures p.storeId.Some? ==> r.storeId == p.storeId.value
    ensures p.storeId.None? ==> r.storeId == u.storeId
    ensures p.isActive.Some? ==> r.isActive == p.isActive.value
    ensures p.isActive.None? ==> r.isActive == u.isActive
    ensures p.createdAt.Some? ==> r.createdAt == p.createdAt.value
    ensures p.createdAt.None? ==> r.createdAt == u.createdAt
  {
    User(Pick(p.email, u.email), Pick(p.hashedPassword, u.hashedPassword),
         Pick(p.storeId, u.storeId), Pick(p.isActive, u.isActive), Pick(p.createdAt, u.createdAt))
  }

  // ---------------------------------------------------------------------------
  // The order listing: filter, newest first, then skip and limit

  /** A filter value constrains the listing only when it is present and
      non-empty (an absent or empty query parameter is dropped). */
  predicate Constrains(f: Option<string>) {
    f.Some? && f.value != ""
  }

  predicate Matches(o: Order, status: Option<string>, callStatus: Option<string>) {
    && (Constrains(status) ==> o.status == status.value)
    && (Constrains(callStatus) ==> o.callStatus == callStatus.value)
  }

  /** An absent or empty filter lets every order through. */
  lemma UnconstrainedMatchesAll(o: Order, status: Option<string>, callStatus: Option<string>)
    requires !Constrains(status) && !Constrains(callStatus)
    ensures Matches(o, status, callStatus)
  {
  }

  /** The ids below n whose orders match, in natural order; each matching id
      occurs exactly once. */
  function MatchingIds(m: map<Id, Order>, n: nat, status: Option<string>, callStatus: Option<string>)
    : (r: seq<Id>)
    ensures forall x :: x in r ==> x in m
    ensures forall i :: multiset(r)[i] == if i < n && i in m && Matches(m[i], status, callStatus) then 1 else 0
  {
    if n == 0 then []
    else
      var prefix := MatchingIds(m, n - 1, status, callStatus);
      if n - 1 in m && Matches(m[n - 1], status, callStatus) then prefix + [n - 1] else prefix
  }

  ghost predicate AllIn(ids: seq<Id>, m: map<Id, Order>) {
    forall x :: x in ids ==> x in m
  }

  ghost predicate NewestFirst(ids: seq<Id>, m: map<Id, Order>)
    requires AllIn(ids, m)
  {
    forall a, b :: 0 <= a < b < |ids| ==> m[ids[a]].createdAt >= m[ids[b]].createdAt
  }

  /** An id no older than every id of a newest-first sequence can go in front of it. */
  lemma PrependNewestFirst(h: Id, t: seq<Id>, m: map<Id, Order>)
    requires h in m && AllIn(t, m) && NewestFirst(t, m)
    requires forall x :: x in t ==> m[h].createdAt >= m[x].createdAt
    ensures AllIn([h] + t, m) && NewestFirst([h] + t, m)
  {
    var s := [h] + t;
    forall a, b | 0 <= a < b < |s|
      ensures m[s[a]].createdAt >= m[s[b]].createdAt
    {
      assert s[b] == t[b - 1];
      if a > 0 {
        assert s[a] == t[a - 1];
      }
    }
  }

  /** The head of a newest-first sequence is no older than any of its ids. */
  lemma HeadIsNewest(s: seq<Id>, m: map<Id, Order>)
    requires s != [] && AllIn(s, m) && NewestFirst(s, m)
    ensures forall x :: x in s ==> m[s[0]].createdAt >= m[x].createdAt
  {
    forall x | x in s
      ensures m[s[0]].createdAt >= m[x].createdAt
    {
      var k :| 0 <= k < |s| && s[k] == x;
      assert k == 0 || m[s[0]].createdAt >= m[s[k]].createdAt;
    }
  }

  /** Inserts `id` into a newest-first sequence, ahead of every id that is not newer. */
  function InsertNewestFirst(id: Id, sorted: seq<Id>, m: map<Id, Order>): (r: seq<Id>)
    requires id in m && AllIn(sorted, m) && NewestFirst(sorted, m)
    ensures forall x :: x in r ==> x == id || x in sorted
    ensures AllIn(r, m) && NewestFirst(r, m)
    ensures multiset(r) == multiset(sorted) + multiset{id}
  {
    if sorted == [] then [id]
    else if m[id].createdAt >= m[sorted[0]].createdAt then
      HeadIsNewest(sorted, m);
      PrependNewestFirst(id, sorted, m);
      [id] + sorted
    else
      var rest := InsertNewestFirst(id, sorted[1..], m);
      assert sorted == [sorted[0]] + sorted[1..];
      HeadIsNewest(sorted, m);
      PrependNewestFirst(sorted[0], rest, m);
      [sorted[0]] + rest
  }

  /** Orders `ids` newest first by creation time; ids created at the same time
      keep their relative order. */
  function SortNewestFirst(ids: seq<Id>, m: map<Id, Order>): (r: seq<Id>)
    requires AllIn(ids, m)
    ensures AllIn(r, m) && NewestFirst(r, m)
    ensures multiset(r) == multiset(ids)
  {
    if ids == [] then []
    else
      assert ids == [ids[0]] + ids[1..];
      InsertNewestFirst(ids[0], SortNewestFirst(ids[1..], m), m)
  }

  /** Every matching order's id exactly once, newest first. */
  function Listing(m: map<Id, Order>, status: Option<string>, callStatus: Option<string>)
    : (r: seq<Id>)
    requires Dense(m)
    ensures AllIn(r, m) && NewestFirst(r, m)
    ensures forall x :: x in r ==> Matches(m[x], status, callStatus)
    ensures forall i :: multiset(r)[i] == if i in m && Matches(m[i], status, callStatus) then 1 else 0
  {
    var r := SortNewestFirst(MatchingIds(m, |m|, status, callStatus), m);
    assert forall x :: x in r ==> multiset(r)[x] > 0;
    r
  }

  /** The `limit` entries of `all` that follow its first `skip` entries. */
  function Page<T>(all: seq<T>, skip: nat, limit: nat): (r: seq<T>)
    ensures |r| == Min(limit, |all| - Min(skip, |all|))
    ensures forall k :: 0 <= k < |r| ==> skip + k < |all| && r[k] == all[skip + k]
  {
    all[Min(skip, |all|)..Min(skip + limit, |all|)]
  }

  /** A page of the listing holds only stored, matching ids, newest first. */
  lemma PageOfListing(m: map<Id, Order>, status: Option<string>, callStatus: Option<string>, skip: nat, limit: nat)
    requires Dense(m)
    ensures var page := Page(Listing(m, status, callStatus), skip, limit);
            && AllIn(page, m) && NewestFirst(page, m)
            && forall x :: x in page ==> Matches(m[x], status, callStatus)
  {
    var all := Listing(m, status, callStatus);
    var page := Page(all, skip, limit);
    assert forall k :: 0 <= k < |page| ==> page[k] in all;
    assert forall a, b :: 0 <= a < b < |page| ==> page[a] == all[skip + a] && page[b] == all[skip + b];
  }

  /** Fetching a newest-first sequence of matching ids gives matching stored
      orders, newest first. */
  lemma FetchNewestFirst(ids: seq<Id>, m: map<Id, Order>, status: Option<string>, callStatus: Option<string>)
    requires AllIn(ids, m) && NewestFirst(ids, m)
    requires forall x :: x in ids ==> Matches(m[x], status, callStatus)
    ensures var r := Fetch(ids, m);
            && (forall o :: o in r ==> Matches(o, status, callStatus) && o in m.Values)
            && (forall a, b :: 0 <= a < b < |r| ==> r[a].createdAt >= r[b].createdAt)
  {
    var r := Fetch(ids, m);
    forall o | o in r
      ensures Matches(o, status, callStatus) && o in m.Values
    {
      var k :| 0 <= k < |r| && r[k] == o;
      assert ids[k] in ids;
    }
  }

  /** A page of the listing, fetched: what a listing query answers. */
  lemma FetchedPage(m: map<Id, Order>, status: Option<string>, callStatus: Option<string>, skip: nat, limit: nat)
    requires Dense(m)
    ensures var all := Listing(m, status, callStatus);
            var page := Page(all, skip, limit);
            && AllIn(page, m)
            && var r := Fetch(page, m);
               && |r| == Min(limit, |all| - Min(skip, |all|))
               && (forall k :: 0 <= k < |r| ==> r[k] == m[all[skip + k]])
               && (forall o :: o in r ==> Matches(o, status, callStatus) && o in m.Values)
               && (forall a, b :: 0 <= a < b < |r| ==> r[a].createdAt >= r[b].createdAt)
  {
    var page := Page(Listing(m, status, callStatus), skip, limit);
    PageOfListing(m, status, callStatus, skip, limit);
    FetchNewestFirst(page, m, status, callStatus);
  }

  /** The records the ids refer to, in the same order. */
  function Fetch(ids: seq<Id>, m: map<Id, Order>): (r: seq<Order>)
    requires AllIn(ids, m)
    ensures |r| == |ids| && forall k :: 0 <= k < |ids| ==> r[k] == m[ids[k]]
  {
    seq(|ids|, k requires 0 <= k < |ids| => m[ids[k]])
  }

  function Min(a: nat, b: nat): nat { if a <= b then a else b }

  // ---------------------------------------------------------------------------
  // Names a handler can reach on the database and on its documents

  /** The attributes of a database object: the methods its class defines and
      the collections and client its constructor sets. (The attributes every
      object inherits are not modelled.) */
  const DatabaseAttributes: set<string> :=
    { "__init__", "client", "db", "orders", "stores", "users",
      "create_indexes", "get_order", "get_orders", "create_order", "update_order",
      "get_store", "get_store_by_domain", "create_store", "update_store",
      "get_user", "get_user_by_email", "create_user", "update_user" }

  /** Reaching `db.<name>`: it fails when the object has no such attribute. */
  function DatabaseAttribute(name: string): (r: Check)
    ensures r.Ok? <==> name in DatabaseAttributes
    ensures r.Err? ==> r.error == AttributeError(name)
  {
    if name in DatabaseAttributes then Ok(()) else Err(AttributeError(name))
  }

  /** The keys of a stored store document: the store's fields, with its key
      under `_id`, the name the record's `id` field is aliased to. */
  const StoreDocumentKeys: set<string> :=
    { "_id", "shopifyDomain", "accessToken", "webhookSecret", "voiceSettings", "createdAt", "updatedAt" }

  /** Reading `document[key]` from a stored store document. */
  function StoreDocumentField(key: string): (r: Check)
    ensures r.Ok? <==> key in StoreDocumentKeys
    ensures r.Err? ==> r.error == KeyError(key)
  {
    if key in StoreDocumentKeys then Ok(()) else Err(KeyError(key))
  }

  // ---------------------------------------------------------------------------
  // The database

  class Database {
    var orders: map<Id, Order>
    var stores: map<Id, Store>
    var users: map<Id, User>

    /** The unique indexes hold and every collection is densely keyed. */
    ghost predicate Valid()
      reads this
    {
      && Dense(orders) && Dense(stores) && Dense(users)
      && UniqueShopifyOrderIds(orders) && UniqueDomains(stores) && UniqueEmails(users)
    }

    /** An empty database with its indexes created. */
    constructor ()
      ensures Valid()
      ensures orders == map[] && stores == map[] && users == map[]
    {
      orders, stores, users := map[], map[], map[];
    }

    // ----- orders

    function GetOrder(id: Id): (r: Option<Order>)
      reads this
      ensures r.Some? <==> id in orders
      ensures r.Some? ==> r.value == orders[id]
    {
      if id in orders then Some(orders[id]) else None
    }

    /** The first order, in natural order, whose orderNumber is `number`. */
    function OrderIdByNumber(number: string): (r: Option<Id>)
      reads this
      requires Valid()
      ensures r.Some? ==> r.value in orders && orders[r.value].orderNumber == number
      ensures r.Some? ==> forall j :: j in orders && j < r.value ==> orders[j].orderNumber != number
      ensures r.None? ==> forall j :: j in orders ==> orders[j].orderNumber != number
    {
      var m := orders;
      var p := (i: Id) => i in m && m[i].orderNumber == number;
      assert forall j :: j in m <==> 0 <= j < |m|;
      assert forall j :: p(j) <==> j in m && m[j].orderNumber == number;
      FirstFrom(0, |m|, p)
    }

    /** The id holding `shopifyOrderId`; the unique index makes it the only one. */
    function OrderIdByShopifyId(shopifyOrderId: string): (r: Option<Id>)
      reads this
      requires Valid()
      ensures r.None? <==> forall j :: j in orders ==> orders[j].shopifyOrderId != shopifyOrderId
      ensures forall j :: j in orders && orders[j].shopifyOrderId == shopifyOrderId ==> r == Some(j)
    {
      var m := orders;
      var p := (i: Id) => i in m && m[i].shopifyOrderId == shopifyOrderId;
      assert forall j :: j in m <==> 0 <= j < |m|;
      assert forall j :: p(j) <==> j in m && m[j].shopifyOrderId == shopifyOrderId;
      FirstFrom(0, |m|, p)
    }

    /** One page of the orders matching the filters, newest first: the `limit`
        orders that follow the first `skip` of the full listing. */
    function GetOrders(skip: nat, limit: nat, status: Option<string>, callStatus: Option<string>)
      : (r: seq<Order>)
      reads this
      requires Valid() && limit >= 1
      ensures |r| <= limit
      ensures |r| == Min(limit, |Listing(orders, status, callStatus)| - Min(skip, |Listing(orders, status, callStatus)|))
      ensures forall k :: 0 <= k < |r| ==> r[k] == orders[Listing(orders, status, callStatus)[skip + k]]
      ensures forall o :: o in r ==> Matches(o, status, callStatus) && o in orders.Values
      ensures forall a, b :: 0 <= a < b < |r| ==> r[a].createdAt >= r[b].createdAt
    {
      FetchedPage(orders, status, callStatus, skip, limit);
      Fetch(Page(Listing(orders, status, callStatus), skip, limit), orders)
    }

    method CreateOrder(o: Order) returns (r: Result<(Id, Order)>)
      requires Valid()
      modifies this
      ensures Valid() && stores == old(stores) && users == old(users)
      ensures (exists j :: j in old(orders) && old(orders)[j].shopifyOrderId == o.shopifyOrderId) ==>
                r == Err(DuplicateKey("shopifyOrderId")) && orders == old(orders)
      ensures (forall j :: j in old(orders) ==> old(orders)[j].shopifyOrderId != o.shopifyOrderId) ==>
                r == Ok((|old(orders)|, o)) && orders == old(orders)[|old(orders)| := o]
    {
      if OrderIdByShopifyId(o.shopifyOrderId).Some? {
        r := Err(DuplicateKey("shopifyOrderId"));
      } else {
        var id := |orders|;
        InsertKeepsOrdersValid(orders, o);
        orders := orders[id := o];
        r := Ok((id, o));
      }
    }

    /** Would writing `p` into order `id` give another order's external id? */
    ghost predicate OrderPatchClashes(id: Id, p: OrderPatch)
      reads this
    {
      p.shopifyOrderId.Some? &&
      exists j :: j in orders && j != id && orders[j].shopifyOrderId == p.shopifyOrderId.value
    }

    method UpdateOrder(id: Id, p: OrderPatch) returns (r: Result<Option<Order>>)
      requires Valid()
      modifies this
      ensures Valid() && stores == old(stores) && users == old(users)
      ensures id !in old(orders) ==> r == Ok(None) && orders == old(orders)
      ensures id in old(orders) && old(OrderPatchClashes(id, p)) ==>
                r == Err(DuplicateKey("shopifyOrderId")) && orders == old(orders)
      ensures id in old(orders) && !old(OrderPatchClashes(id, p)) ==>
                r == Ok(Some(ApplyOrderPatch(old(orders)[id], p))) &&
                orders == old(orders)[id := ApplyOrderPatch(old(orders)[id], p)]
    {
      if id !in orders {
        r := Ok(None);
        return;
      }
      if p.shopifyOrderId.Some? {
        var holder := OrderIdByShopifyId(p.shopifyOrderId.value);
        if holder.Some? && holder.value != id {
          r := Err(DuplicateKey("shopifyOrderId"));
          return;
        }
      }
      var updated := ApplyOrderPatch(orders[id], p);
      ReplaceKeepsOrdersValid(orders, id, updated);
      orders := orders[id := updated];
      r := Ok(Some(updated));
    }

    // ----- stores

    function GetStore(id: Id): (r: Option<Store>)
      reads this
      ensures r.Some? <==> id in stores
      ensures r.Some? ==> r.value == stores[id]
    {
      if id in stores then Some(stores[id]) else None
    }

    /** The id of the store for `domain`; the unique index makes it the only one. */
    function StoreIdByDomain(domain: string): (r: Option<Id>)
      reads this
      requires Valid()
      ensures r.None? <==> forall j :: j in stores ==> stores[j].shopifyDomain != domain
      ensures forall j :: j in stores && stores[j].shopifyDomain == domain ==> r == Some(j)
    {
      var m := stores;
      var p := (i: Id) => i in m && m[i].shopifyDomain == domain;
      assert forall j :: j in m <==> 0 <= j < |m|;
      assert forall j :: p(j) <==> j in m && m[j].shopifyDomain == domain;
      FirstFrom(0, |m|, p)
    }

    function GetStoreByDomain(domain: string): (r: Option<Store>)
      reads this
      requires Valid()
      ensures r.Some? <==> exists j :: j in stores && stores[j].shopifyDomain == domain
      ensures r.Some? ==> r.value.shopifyDomain == domain && r.value in stores.Values
    {
      var id := StoreIdByDomain(domain);
      if id.Some? then Some(stores[id.value]) else None
    }

    method CreateStore(s: Store) returns (r: Result<(Id, Store)>)
      requires Valid()
      modifies this
      ensures Valid() && orders == old(orders) && users == old(users)
      ensures (exists j :: j in old(stores) && old(stores)[j].shopifyDomain == s.shopifyDomain) ==>
                r == Err(DuplicateKey("shopifyDomain")) && stores == old(stores)
      ensures (forall j :: j in old(stores) ==> old(stores)[j].shopifyDomain != s.shopifyDomain) ==>
                r == Ok((|old(stores)|, s)) && stores == old(stores)[|old(stores)| := s]
    {
      if StoreIdByDomain(s.shopifyDomain).Some? {
        r := Err(DuplicateKey("shopifyDomain"));
      } else {
        var id := |stores|;
        InsertKeepsStoresValid(stores, s);
        stores := stores[id := s];
        r := Ok((id, s));
      }
    }

    ghost predicate StorePatchClashes(id: Id, p: StorePatch)
      reads this
    {
      p.shopifyDomain.Some? &&
      exists j :: j in stores && j != id && stores[j].shopifyDomain == p.shopifyDomain.value
    }

    /** Replaces the given fields and always stamps `updatedAt` with `now`,
        whatever the caller's fields say about it. */
    method UpdateStore(id: Id, p: StorePatch, now: Timestamp) returns (r: Result<Option<Store>>)
      requires Valid()
      modifies this
      ensures Valid() && orders == old(orders) && users == old(users)
      ensures id !in old(stores) ==> r == Ok(None) && stores == old(stores)
      ensures id in old(stores) && old(StorePatchClashes(id, p)) ==>
                r == Err(DuplicateKey("shopifyDomain")) && stores == old(stores)
      ensures id in old(stores) && !old(StorePatchClashes(id, p)) ==>
                r == Ok(Some(ApplyStorePatch(old(stores)[id], p.(updatedAt := Some(now))))) &&
                stores == old(stores)[id := ApplyStorePatch(old(stores)[id], p.(updatedAt := Some(now)))] &&
                stores[id].updatedAt == now
    {
      var stamped := p.(updatedAt := Some(now));
      if id !in stores {
        r := Ok(None);
        return;
      }
      if stamped.shopifyDomain.Some? {
        var holder := StoreIdByDomain(stamped.shopifyDomain.value);
        if holder.Some? && holder.value != id {
          r := Err(DuplicateKey("shopifyDomain"));
          return;
        }
      }
      var updated := ApplyStorePatch(stores[id], stamped);
      ReplaceKeepsStoresValid(stores, id, updated);
      stores := stores[id := updated];
      r := Ok(Some(updated));
    }

    // ----- users

    function GetUser(id: Id): (r: Option<User>)
      reads this
      ensures r.Some? <==> id in users
      ensures r.Some? ==> r.value == users[id]
    {
      if id in users then Some(users[id]) else None
    }

    /** The id of the user with `email`; the unique index makes it the only one. */
    function UserIdByEmail(email: string): (r: Option<Id>)
      reads this
      requires Valid()
      ensures r.None? <==> forall j :: j in users ==> users[j].email != email
      ensures forall j :: j in users && users[j].email == email ==> r == Some(j)
    {
      var m := users;
      var p := (i: Id) => i in m && m[i].email == email;
      assert forall j :: j in m <==> 0 <= j < |m|;
      assert forall j :: p(j) <==> j in m && m[j].email == email;
      FirstFrom(0, |m|, p)
    }

    function GetUserByEmail(email: string): (r: Option<User>)
      reads this
      requires Valid()
      ensures r.Some? <==> exists j :: j in users && users[j].email == email
      ensures r.Some? ==> r.value.email == email && r.value in users.Values
    {
      var id := UserIdByEmail(email);
      if id.Some? then Some(users[id.value]) else None
    }

    method CreateUser(u: User) returns (r: Result<(Id, User)>)
      requires Valid()
      modifies this
      ensures Valid() && orders == old(orders) && stores == old(stores)
      ensures (exists j :: j in old(users) && old(users)[j].email == u.email) ==>
                r == Err(DuplicateKey("email")) && users == old(users)
      ensures (forall j :: j in old(users) ==> old(users)[j].email != u.email) ==>
                r == Ok((|old(users)|, u)) && users == old(users)[|old(users)| := u]
    {
      if UserIdByEmail(u.email).Some? {
        r := Err(DuplicateKey("email"));
      } else {
        var id := |users|;
        InsertKeepsUsersValid(users, u);
        users := users[id := u];
        r := Ok((id, u));
      }
    }

    ghost predicate UserPatchClashes(id: Id, p: UserPatch)
      reads this
    {
      p.email.Some? &&
      exists j :: j in users && j != id && users[j].email == p.email.value
    }

    method UpdateUser(id: Id, p: UserPatch) returns (r: Result<Option<User>>)
      requires Valid()
      modifies this
      ensures Valid() && orders == old(orders) && stores == old(stores)
      ensures id !in old(users) ==> r == Ok(None) && users == old(users)
      ensures id in old(users) && old(UserPatchClashes(id, p)) ==>
                r == Err(DuplicateKey("email")) && users == old(users)
      ensures id in old(users) && !old(UserPatchClashes(id, p)) ==>
                r == Ok(Some(ApplyUserPatch(old(users)[id], p))) &&
                users == old(users)[id := ApplyUserPatch(old(users)[id], p)]
    {
      if id !in users {
        r := Ok(None);
        return;
      }
      if p.email.Some? {
        var holder := UserIdByEmail(p.email.value);
        if holder.Some? && holder.value != id {
          r := Err(DuplicateKey("email"));
          return;
        }
      }
      var updated := ApplyUserPatch(users[id], p);
      ReplaceKeepsUsersValid(users, id, updated);
      users := users[id := updated];
      r := Ok(Some(updated));
    }
  }
}

=== FILE: Scenarios.dfy ===
/** The confirmation flow end to end on a fresh store: an order is stored, a
    call is placed for it, the customer presses a key, and the dashboard polls
    the call status. */
module Scenarios {
  import opened Outcomes
  import opened Models
  import opened Persistence
  import opened VoiceService
  import OrdersRouter
  import VoiceRouter

  /** After a call and a keypad "1" the order is confirmed, carries the
      provider's call status and the call time, and the caller heard the
      confirmation. Polling the call status then answers "no call
      initiated": placing a call never stores the call id the poll reads. */
  method CallAndConfirm(shopifyOrderId: string, orderNumber: string, customerName: string,
                        customerPhone: string, supportNumber: string,
                        provider: (string, string) -> ProviderOutcome, lookup: string -> ProviderLookup,
                        received: Timestamp, now: Timestamp)
    returns (final: Order, heard: Result<seq<Verb>>, poll: Result<CallReport>)
    ensures ParseOrderStatus(final.status) == Some(Confirmed)
    ensures final.callStatus == MakeCall(provider(customerPhone, orderNumber), now).status
    ensures final.lastCallAt == Some(now) && final.createdAt == received
    ensures heard == Ok([Say(OrderConfirmed, Locale)])
    ensures poll == Err(BadRequest(OrdersRouter.NoCallInitiated))
  {
    var db := new Database();
    var created := db.CreateOrder(NewOrder(shopifyOrderId, orderNumber, customerName, customerPhone, received));
    var id := created.value.0;
    var call, _ := OrdersRouter.InitiateCall(db, id, provider, now);
    heard := VoiceRouter.HandleIvrInput(db, orderNumber, Some("1"), supportNumber);
    final := db.orders[id];
    poll := OrdersRouter.GetCallStatus(db, id, lookup, now);
  }
}

=== FILE: VoiceRouter.dfy ===
/** The voice endpoints: the public menu and keypad-input callbacks the
    telephony provider requests, and the authenticated voice-settings and
    test-call endpoints. The provider's form field `Digits` is an optional
    string; the caller's user record comes from the authentication layer,
    which is not modelled. */
module VoiceRouter {
  import opened Outcomes
  import opened Models
  import opened Persistence
  import opened VoiceService

  const NoInput := "No input received"
  const NoStore := "No store connected"
  const StoreNotFound := "Store not found"
  const TestOrderNumber := "TEST-ORDER"

  /** The menu script answered to the provider for an order number; the
      handler does not consult the store. It serves the corrected menu, whose
      fallback redirect returns to this order's welcome route. */
  function WelcomeCall(orderNumber: string): (r: seq<Verb>)
    ensures |r| == 3 && r[0] == Say(OrderMenu(orderNumber), Locale)
    ensures r[1].Gather? && r[1].numDigits == 1 && r[1].timeout == 10 && r[1].httpMethod == "POST"
    ensures Routable(orderNumber) ==> MatchRoute(HandleInputRoute, RequestPath(r[1].action)) == Some(orderNumber)
    ensures r[2].Redirect? && (Routable(orderNumber) ==> MatchRoute(WelcomeRoute, RequestPath(r[2].url)) == Some(orderNumber))
    ensures r[..2] == IvrMenuAsWritten(orderNumber)[..2]
    ensures r[2] == Redirect(RoutePath(WelcomeRoute, orderNumber))
  {
    IvrMenu(orderNumber)
  }

  /** The status a keypad digit sets: "1" confirms, "0" cancels, "2" asks for
      support; any other input sets none. */
  function DigitStatus(digit: string): (r: Option<OrderStatus>)
    ensures r.Some? <==> digit in AcceptedDigits
    ensures r == Some(Confirmed) <==> digit == "1"
    ensures r == Some(Cancelled) <==> digit == "0"
    ensures r == Some(Support) <==> digit == "2"
  {
    if digit == "1" then Some(Confirmed)
    else if digit == "0" then Some(Cancelled)
    else if digit == "2" then Some(Support)
    else None
  }

  /** What the caller hears always matches what is written: the reply
      confirms, cancels or connects to support exactly when the status
      becomes confirmed, cancelled or support, and re-prompts exactly when
      nothing is written. */
  lemma ReplyAgreesWithStatus(orderNumber: string, digit: string, supportNumber: string)
    ensures var reply := InputReply(orderNumber, digit, supportNumber);
            && (DigitStatus(digit) == Some(Confirmed) <==> reply[0].prompt == OrderConfirmed)
            && (DigitStatus(digit) == Some(Cancelled) <==> reply[0].prompt == OrderCancelled)
            && (DigitStatus(digit) == Some(Support) <==> reply[0].prompt == ConnectingToSupport)
            && (DigitStatus(digit).None? <==> reply[0].prompt == InvalidInput)
  {
    var reply := InputReply(orderNumber, digit, supportNumber);
    if digit !in AcceptedDigits {
      assert reply[0].prompt == InvalidInput;
    }
  }

  /** A `Digits` field counts as input only when present and non-empty. */
  predicate HasInput(digits: Option<string>) {
    digits.Some? && digits.value != ""
  }

  /** The order `orderNumber` after keypad input `digit`: only the status
      changes, and only for an accepted digit. */
  function AfterInput(o: Order, digit: string): (r: Order)
    ensures DigitStatus(digit).None? ==> r == o
    ensures DigitStatus(digit).Some? ==> ParseOrderStatus(r.status) == DigitStatus(digit)
    ensures r.(status := o.status) == o
  {
    match DigitStatus(digit)
    case None => o
    case Some(s) => o.(status := OrderStatusName(s))
  }

  /** Handles the provider's keypad callback for an order number. Missing or
      empty input is refused before the store is read; an unknown order
      number is refused; otherwise the reply script is returned and an
      accepted digit writes the matching status into the first order with
      that number. Nothing else is written: not the call status, not any
      other field, not any other record. */
  method HandleIvrInput(db: Database, orderNumber: string, digits: Option<string>, supportNumber: string)
    returns (r: Result<seq<Verb>>)
    requires db.Valid()
    modifies db
    ensures db.Valid() && db.stores == old(db.stores) && db.users == old(db.users)
    ensures !HasInput(digits) ==> r == Err(BadRequest(NoInput)) && db.orders == old(db.orders)
    ensures HasInput(digits) && old(db.OrderIdByNumber(orderNumber)).None? ==>
              r == Err(NotFound(OrderNotFound)) && db.orders == old(db.orders)
    ensures HasInput(digits) && old(db.OrderIdByNumber(orderNumber)).Some? ==>
              var id := old(db.OrderIdByNumber(orderNumber)).value;
              && r == Ok(InputReply(orderNumber, digits.value, supportNumber))
              && db.orders == old(db.orders)[id := AfterInput(old(db.orders)[id], digits.value)]
  {
    if !HasInput(digits) {
      r := Err(BadRequest(NoInput));
      return;
    }
    var digit := digits.value;
    var found := db.OrderIdByNumber(orderNumber);
    if found.None? {
      r := Err(NotFound(OrderNotFound));
      return;
    }
    var id := found.value;
    var reply := InputReply(orderNumber, digit, supportNumber);
    var status := DigitStatus(digit);
    if status.Some? {
      var _ := db.UpdateOrder(id, NoOrderChange.(status := Some(OrderStatusName(status.value))));
    } else {
      assert db.orders == db.orders[id := db.orders[id]];
    }
    r := Ok(reply);
  }

  /** The keypad callback as written: after the input check it calls
      `db.get_order_by_number`, which the database class does not define, so
      every request with input fails there, before the status writes that
      follow the lookup. */
  function HandleIvrInputAsWritten(db: Database, orderNumber: string, digits: Option<string>,
                                   supportNumber: string): (r: Result<seq<Verb>>)
    reads db
    requires db.Valid()
    ensures !HasInput(digits) ==> r == Err(BadRequest(NoInput))
    ensures HasInput(digits) ==> r == Err(AttributeError("get_order_by_number"))
  {
    if !HasInput(digits) then Err(BadRequest(NoInput))
    else
      Then(DatabaseAttribute("get_order_by_number"),
           if db.OrderIdByNumber(orderNumber).None? then Err(NotFound(OrderNotFound))
           else Ok(InputReply(orderNumber, digits.value, supportNumber)))
  }

  /** The store the caller's account is connected to, if both the link and the
      store exist. */
  function StoreOf(db: Database, user: User): (r: Result<Id>)
    reads db
    ensures user.storeId.None? ==> r == Err(NotFound(NoStore))
    ensures user.storeId.Some? && user.storeId.value !in db.stores ==> r == Err(NotFound(StoreNotFound))
    ensures user.storeId.Some? && user.storeId.value in db.stores ==> r == Ok(user.storeId.value)
  {
    match user.storeId
    case None => Err(NotFound(NoStore))
    case Some(sid) => if db.GetStore(sid).Some? then Ok(sid) else Err(NotFound(StoreNotFound))
  }

  function GetVoiceSettings(db: Database, user: User): (r: Result<VoiceSettings>)
    reads db
    ensures r.Ok? <==> StoreOf(db, user).Ok?
    ensures r.Ok? ==> r.value == db.stores[user.storeId.value].voiceSettings
    ensures r.Err? ==> r.error == StoreOf(db, user).error
  {
    match StoreOf(db, user)
    case Err(e) => Err(e)
    case Ok(sid) => Ok(db.stores[sid].voiceSettings)
  }

  /** Replaces the voice settings of the caller's store wholesale, stamps the
      store's `updatedAt`, and answers the settings as stored. */
  method UpdateVoiceSettings(db: Database, user: User, settings: VoiceSettings, now: Timestamp)
    returns (r: Result<VoiceSettings>)
    requires db.Valid()
    modifies db
    ensures db.Valid() && db.orders == old(db.orders) && db.users == old(db.users)
    ensures old(StoreOf(db, user)).Err? ==> r == Err(old(StoreOf(db, user)).error) && db.stores == old(db.stores)
    ensures old(StoreOf(db, user)).Ok? ==>
              var sid := user.storeId.value;
              && r == Ok(settings)
              && db.stores == old(db.stores)[sid := old(db.stores)[sid].(voiceSettings := settings, updatedAt := now)]
              && db.stores[sid].voiceSettings == settings
  {
    var store := StoreOf(db, user);
    if store.Err? {
      r := Err(store.error);
      return;
    }
    var sid := store.value;
    ghost var before: map<Id, Store> := db.stores;
    var patch := NoStoreChange.(voiceSettings := Some(settings));
    assert ApplyStorePatch(before[sid], patch.(updatedAt := Some(now)))
        == before[sid].(voiceSettings := settings, updatedAt := now);
    var updated := db.UpdateStore(sid, patch, now);
    r := Ok(updated.value.value.voiceSettings);
  }

  /** The settings update as written: once the store is found it reads
      `store["id"]`, but a stored document carries its key under `_id`, so
      the request fails before `update_store` is called. */
  function UpdateVoiceSettingsAsWritten(db: Database, user: User, settings: VoiceSettings)
    : (r: Result<VoiceSettings>)
    reads db
    ensures StoreOf(db, user).Err? ==> r == Err(StoreOf(db, user).error)
    ensures StoreOf(db, user).Ok? ==> r == Err(KeyError("id"))
  {
    match StoreOf(db, user)
    case Err(e) => Err(e)
    case Ok(_) => Then(StoreDocumentField("id"), Ok(settings))
  }

  /** Places a test call to `phoneNumber` for the fixed order number
      "TEST-ORDER", once the caller's store is found; writes nothing. */
  function TestVoiceCall(db: Database, user: User, phoneNumber: string,
                         provider: (string, string) -> ProviderOutcome, now: Timestamp)
    : (r: Result<CallResult>)
    reads db
    ensures r.Ok? <==> StoreOf(db, user).Ok?
    ensures r.Err? ==> r.error == StoreOf(db, user).error
    ensures r.Ok? ==> r.value == MakeCall(provider(phoneNumber, TestOrderNumber), now)
  {
    match StoreOf(db, user)
    case Err(e) => Err(e)
    case Ok(_) => Ok(MakeCall(provider(phoneNumber, TestOrderNumber), now))
  }
}

=== FILE: VoiceService.dfy ===
/** The telephony adapter: the interactive voice menu and its keypad replies as
    sequences of telephony verbs, and the wrappers that turn the provider's
    call-placement and call-lookup outcomes into results. The spoken Urdu
    texts are opaque prompts; the markup serialisation of a verb sequence is
    not modelled. */
module VoiceService {
  import opened Outcomes
  import opened Models

  // ---------------------------------------------------------------------------
  // Routes the scripts point the provider at

  const WelcomeRoute := "/api/voice/welcome"
  const HandleInputRoute := "/api/voice/handle-input"

  /** `{route}/{orderNumber}` */
  function RoutePath(route: string, orderNumber: string): string {
    route + "/" + orderNumber
  }

  /** A non-empty path segment: what a `{order_number}` path parameter matches. */
  predicate Segment(x: string) {
    x != [] && '/' !in x
  }

  /** The order number a request path addresses under `route`, if the path
      is `{route}/{segment}`. */
  function MatchRoute(route: string, path: string): (r: Option<string>)
    ensures r.Some? ==> Segment(r.value) && path == RoutePath(route, r.value)
  {
    var n := |route| + 1;
    if |path| > n && path[..n] == route + "/" && '/' !in path[n..] then
      assert path == path[..n] + path[n..];
      Some(path[n..])
    else None
  }

  /** True when `x` holds none of the characters that end the path of a URL
      reference ('?' starts the query, '#' the fragment). */
  predicate PlainPath(x: string) {
    '?' !in x && '#' !in x
  }

  /** The path a URL reference requests: everything before the first '?' or
      '#'. Percent-decoding is not modelled. */
  function RequestPath(url: string): (p: string)
    ensures PlainPath(p) && p <= url
    ensures PlainPath(url) ==> p == url
  {
    if url == [] || url[0] == '?' || url[0] == '#' then []
    else [url[0]] + RequestPath(url[1..])
  }

  /** A path prefix free of '?' and '#' survives the cut. */
  lemma {:induction false} RequestPathAppend(a: string, b: string)
    requires PlainPath(a)
    ensures RequestPath(a + b) == a + RequestPath(b)
  {
    if a == [] {
      assert a + b == b;
    } else {
      assert a[0] in a;
      assert (a + b)[0] == a[0] && (a + b)[1..] == a[1..] + b;
      assert PlainPath(a[1..]) by {
        forall c | c in a[1..] ensures c in a { }
      }
      RequestPathAppend(a[1..], b);
      assert a == [a[0]] + a[1..];
    }
  }

  /** An order number that a URL built from it delivers intact to the
      `{order_number}` parameter: a path segment without the characters that
      end a path or start a percent-escape. */
  predicate Routable(x: string) {
    Segment(x) && PlainPath(x) && '%' !in x
  }

  /** A URL built for a routable order number requests the path routed back
      to that order number. */
  lemma RoutePathMatches(route: string, orderNumber: string)
    requires PlainPath(route)
    ensures Routable(orderNumber) ==>
              MatchRoute(route, RequestPath(RoutePath(route, orderNumber))) == Some(orderNumber)
  {
    var path := RoutePath(route, orderNumber);
    var n := |route| + 1;
    assert path[..n] == route + "/";
    assert path[n..] == orderNumber;
  }

  // ---------------------------------------------------------------------------
  // Verbs of a voice script

  const Locale := "ur-PK"

  /** The spoken texts, as opaque prompts. */
  datatype Prompt =
    | OrderMenu(orderNumber: string)   // "your order number is ...; press 1, 0 or 2"
    | OrderConfirmed
    | OrderCancelled
    | ConnectingToSupport
    | InvalidInput

  datatype Verb =
    | Say(prompt: Prompt, language: string)
    | Gather(numDigits: nat, timeout: nat, action: string, httpMethod: string)
    | Redirect(url: string)
    | Dial(number: string)

  /** The menu script as the source builds it: the spoken menu, a one-digit
      gather posted to the input route for this order, then a fallback
      redirect to the bare welcome route. */
  function IvrMenuAsWritten(orderNumber: string): (r: seq<Verb>)
    ensures |r| == 3 && r[2] == Redirect(WelcomeRoute)
    ensures MatchRoute(WelcomeRoute, RequestPath(r[2].url)) == None
  {
    [ Say(OrderMenu(orderNumber), Locale),
      Gather(1, 10, RoutePath(HandleInputRoute, orderNumber), "POST"),
      Redirect(WelcomeRoute) ]
  }

  /** The menu script with the fallback redirect addressed to the welcome
      route of the same order, so a caller who presses nothing hears the menu
      again. */
  function IvrMenu(orderNumber: string): (r: seq<Verb>)
    ensures |r| == 3
    ensures r[0] == Say(OrderMenu(orderNumber), Locale)
    ensures r[1].Gather? && r[1].numDigits == 1 && r[1].timeout == 10 && r[1].httpMethod == "POST"
    ensures Routable(orderNumber) ==> MatchRoute(HandleInputRoute, RequestPath(r[1].action)) == Some(orderNumber)
    ensures r[2].Redirect?
    ensures Routable(orderNumber) ==> MatchRoute(WelcomeRoute, RequestPath(r[2].url)) == Some(orderNumber)
    ensures r[..2] == IvrMenuAsWritten(orderNumber)[..2]
  {
    RoutePathMatches(HandleInputRoute, orderNumber);
    RoutePathMatches(WelcomeRoute, orderNumber);
    [ Say(OrderMenu(orderNumber), Locale),
      Gather(1, 10, RoutePath(HandleInputRoute, orderNumber), "POST"),
      Redirect(RoutePath(WelcomeRoute, orderNumber)) ]
  }

  /** The callbacks carry the order number unescaped, so an order number that
      is a path segment but not routable reaches another path: "#1001" (the
      form of a store's order name) leaves the input route without a segment. */
  lemma FragmentOrderNumberUnrouted()
    ensures Segment("#1001") && !Routable("#1001")
    ensures MatchRoute(HandleInputRoute, RequestPath(IvrMenu("#1001")[1].action)) == None
  {
    assert "#1001"[0] == '#';
    RoutesArePlain();
    var input := HandleInputRoute + "/";
    assert RoutePath(HandleInputRoute, "#1001") == input + "#1001";
    RequestPathAppend(input, "#1001");
    assert RequestPath("#1001") == [];
    assert input + [] == input;
  }

  /** Likewise "A?b" sends the fallback redirect to the menu of order "A". */
  lemma QueryOrderNumberMisrouted()
    ensures Segment("A?b") && !Routable("A?b")
    ensures MatchRoute(WelcomeRoute, RequestPath(IvrMenu("A?b")[2].url)) == Some("A")
  {
    assert "A?b"[1] == '?';
    RoutesArePlain();
    var welcomeA := RoutePath(WelcomeRoute, "A");
    assert RoutePath(WelcomeRoute, "A?b") == welcomeA + "?b";
    assert PlainPath(welcomeA) by {
      assert forall c :: c in welcomeA ==> c in WelcomeRoute || c == '/' || c == 'A';
    }
    RequestPathAppend(welcomeA, "?b");
    assert "?b"[0] == '?';
    assert RequestPath("?b") == [];
    assert welcomeA + [] == welcomeA;
    RoutePathMatches(WelcomeRoute, "A");
  }

  /** The two callback routes end no path early. */
  lemma RoutesArePlain()
    ensures PlainPath(HandleInputRoute) && PlainPath(WelcomeRoute)
    ensures PlainPath(HandleInputRoute + "/")
  {
    assert forall c :: c in HandleInputRoute + "/" ==> c in HandleInputRoute || c == '/';
  }

  /** The keypad digits the menu offers. */
  const AcceptedDigits: set<string> := {"1", "0", "2"}

  /** The reply script for one keypad input. */
  function InputReply(orderNumber: string, digit: string, supportNumber: string): (r: seq<Verb>)
    ensures |r| >= 1 && r[0].Say? && r[0].language == Locale
    ensures digit == "1" ==> r == [Say(OrderConfirmed, Locale)]
    ensures digit == "0" ==> r == [Say(OrderCancelled, Locale)]
    ensures (exists k :: 0 <= k < |r| && r[k].Dial?) <==> digit == "2"
    ensures digit == "2" ==> r == [Say(ConnectingToSupport, Locale), Dial(supportNumber)]
    ensures (exists k :: 0 <= k < |r| && r[k].Redirect?) <==> digit !in AcceptedDigits
    ensures digit !in AcceptedDigits ==>
              |r| == 2 && r[0].prompt == InvalidInput && r[1].Redirect? &&
              (Routable(orderNumber) ==> MatchRoute(WelcomeRoute, RequestPath(r[1].url)) == Some(orderNumber))
  {
    if digit == "1" then [Say(OrderConfirmed, Locale)]
    else if digit == "0" then [Say(OrderCancelled, Locale)]
    else if digit == "2" then
      var r := [Say(ConnectingToSupport, Locale), Dial(supportNumber)];
      assert r[1].Dial?;
      r
    else
      RoutePathMatches(WelcomeRoute, orderNumber);
      var r := [Say(InvalidInput, Locale), Redirect(RoutePath(WelcomeRoute, orderNumber))];
      assert r[1].Redirect?;
      r
  }

  // ---------------------------------------------------------------------------
  // Call placement and call lookup

  /** What the provider answers when asked to place a call. */
  datatype ProviderOutcome = Placed(sid: string, status: string) | Rejected(message: string)

  /** What the provider answers when asked for a call by its id. */
  datatype ProviderLookup = Fetched(sid: string, status: string, duration: Option<string>) | LookupFailed

  /** The result of placing a call, with the keys the source's dictionary has. */
  datatype CallResult = CallResult(
    callSid: Option<string>,
    error: Option<string>,
    status: string,
    timestamp: Timestamp)

  /** Placing a call never fails as an operation: a provider rejection becomes
      a result with status "failed" and the error; an accepted call becomes
      its id and the provider's status. Either way the result is stamped. */
  function MakeCall(outcome: ProviderOutcome, now: Timestamp): (r: CallResult)
    ensures r.timestamp == now
    ensures r.error.Some? <==> outcome.Rejected?
    ensures r.callSid.Some? <==> outcome.Placed?
    ensures outcome.Rejected? ==>
              ParseCallStatus(r.status) == Some(Failed) && r.error == Some(outcome.message)
    ensures outcome.Placed? ==> r.callSid == Some(outcome.sid) && r.status == outcome.status
  {
    match outcome
    case Placed(sid, status) => CallResult(Some(sid), None, status, now)
    case Rejected(message) => CallResult(None, Some(message), CallStatusName(Failed), now)
  }

  datatype CallReport = CallReport(
    callSid: string,
    status: string,
    duration: Option<string>,
    timestamp: Timestamp)

  /** A failed lookup yields nothing; a successful one yields the provider's
      record stamped with the current time. */
  function CallStatusOf(lookup: ProviderLookup, now: Timestamp): (r: Option<CallReport>)
    ensures r.None? <==> lookup.LookupFailed?
    ensures r.Some? ==>
              r.value.callSid == lookup.sid && r.value.status == lookup.status &&
              r.value.duration == lookup.duration && r.value.timestamp == now
  {
    match lookup
    case Fetched(sid, status, duration) => Some(CallReport(sid, status, duration, now))
    case LookupFailed => None
  }
}
